=== FILE: README.md ===
# Solum build orchestration, modelled in Dafny

Solum is an application lifecycle service. A user uploads a **plan**, a YAML
document listing the **artifacts** (source repositories) of an application.
The API stores the plan, generates a deploy key for every private repository,
and keeps the keys in the configured parameter store. Creating an **assembly**
from a plan turns each artifact into a PENDING **image** and a build message
cast to a **worker**. The worker runs the unit-test and build tool scripts
under `contrib/<tool tree>/<image variant>/`, reports the job's progress, and
asks the deployer to deploy the image it built. A no-build worker only runs
the tests and marks the assembly READY itself. Around this sit small REST rules:
the plan version dispatch, the body checks, the error mapping on delete,
`_lookup`'s trailing-slash handling, and the workflow resource's numbering and
dict projection.

The model is functional. Documents are values. Every operation is a pure
function from its inputs, including the state it reads, to its result, and
the effects it has on collaborators are a trace. For example, the worker's
effects are the processes it starts, the job updates, the assembly status
updates and the deploy requests, each in order, exactly as a test's mocks
observe them.

| module | file | models |
|---|---|---|
| `Values`, `Outcomes` | values.dfy | YAML/JSON values and bound methods, Python truthiness, `%s`, `d.get`, `d[k]`, `in`, and the exceptions |
| `Text` | text.dfy | `str.split`, `sep.join` and `str.strip` |
| `ImageStates`, `AssemblyStates`, `Contexts`, `Secrets`, `Messages` | vocabulary.dfy | the shared vocabulary: lifecycle states, request context, deploy keys, cast messages |
| `BuildCommand` | build_command.dfy | the worker's command resolver |
| `ShellWorker` | shell_worker.dfy | the worker's `build` and `unittest` endpoints and `update_assembly_status` |
| `NobuildWorker` | nobuild_worker.dfy | `solum/worker/handlers/shell_nobuild.py` |
| `PlanHandler` | plan_handler.dfy | `solum/api/handlers/plan_handler.py` |
| `AssemblyHandler` | assembly_handler.dfy | `solum/api/handlers/assembly_handler.py` |
| `Routing`, `PlanController` | routing.dfy, plan_controller.dfy | `solum/api/controllers/v1/plan.py` |
| `WorkflowModel`, `WorkflowController` | workflow.dfy | `solum/api/controllers/v1/datamodel/workflow.py`, `solum/api/controllers/v1/workflow.py`, and the workflow handler's `create` |
| `Pipeline` | pipeline.dfy | how a message cast by the assembly handler reaches the workers |

## How the model stands in for what it does not contain

- **The shell worker.** `solum/worker/handlers/shell.py` is not part of this
  model. `ShellWorker` encodes what `solum/tests/worker/handlers/test_shell.py`
  asserts. Where the tests are silent, the model makes these choices:
  - the tool tree depends on the source format alone and the variant on the
    image format alone; a pair with no tool is an `UnknownFormat` error;
  - the script's path is `<project dir>/contrib/<tree>/<variant>/<script>`;
  - the created image is read from the last output line starting with
    `created_image_id=`, its value stripped, and a blank value creates
    nothing;
  - the private key is that of the last deploy-key record whose source url
    matches;
  - the `unittest` endpoint runs the unit-test script whatever `test_cmd`
    holds, while `build` runs it only for a truthy `test_cmd`;
  - the inherited `_run_unittest` helper that the no-build worker's `build`
    calls unconditionally (solum/worker/handlers/shell_nobuild.py:46) runs
    the script only for a truthy `test_cmd` and otherwise returns 0, like
    the test stage of `build` and unlike the `unittest` endpoint;
  - the worker's `build` is assumed to accept the cast's `artifact_type`,
    `run_cmd` and `others` keywords and to ignore them.
- **Parameters instead of effects.** The following are parameters of the
  functions:
  - key generation (`gen(k)` is the k-th key pair), uuids, database ids and
    the reference barbican returns;
  - the YAML loader, the plan datamodel's `as_dict` and `refined_content`,
    and the host url;
  - the worker's process environment, the build uuid and the task log
    directory;
  - the exit code and output of a tool script, and the exception a
    database destroy raises.
- **Stores as maps.** The local secrets file and barbican are maps from
  handle to payload. The base64 text of the payload is kept as the
  deploy-key list itself.
- **Behaviour of the code worth knowing:**
  - An artifact without `content.href` raises KeyError, in the plan handler
    (`solum/api/handlers/plan_handler.py:96`) as in the assembly handler
    (`solum/api/handlers/assembly_handler.py:106`). It is not turned into a
    bad-request error.
  - In `PlanHandler.create`, one malformed artifact fails the whole
    creation, and nothing is stored. `AssemblyHandler.create` stops
    dispatching at the first malformed artifact, and keeps the assembly and
    the messages already cast.
  - The no-build worker reads its status token under `status_token`, while
    the assembly handler stores the artifact's token under `repo_token`; see
    Findings.

## Model

| member | source | states |
|---|---|---|
| `Values.DecimalRoundTrip` | solum/api/controllers/v1/datamodel/workflow.py:62-63 | the decimal rendering of a workflow number reads back as that number, so distinct numbers give distinct uris |
| `Values.FormatIsOne` | solum/api/controllers/v1/plan.py:42-45 | `'%s' % v` is `1` exactly for the integer 1 and the string "1", the two versions that find `init_plan_v1` |
| `Values.Without` | solum/api/handlers/plan_handler.py:126-127 | dropping a key keeps every other key with its value and adds none |
| `Outcomes.Contains` | solum/api/handlers/plan_handler.py:88-90 | Python's `in` never raises on a dict, a string or a list, and raises on anything else; on a dict it tests the keys and on a string it looks for a substring |
| `Outcomes.Subscript` | solum/api/handlers/plan_handler.py:89-90 | a string key subscripts only a dict holding it; a dict without it raises KeyError |
| `Text.JoinSplit` | solum/tests/worker/handlers/test_shell.py:96-97 | splitting the build output into lines and joining them again gives the output back |
| `Text.SplitAround` | solum/tests/worker/handlers/test_shell.py:96-97 | the lines of `a + "\n" + b` are the lines of `a` followed by the lines of `b` |
| `Text.Strip` | solum/tests/worker/handlers/test_shell.py:229-230 | stripping removes exactly the leading and trailing whitespace and keeps a slice that begins and ends with non-whitespace |
| `Text.StripOfSpaces` | solum/tests/worker/handlers/test_shell.py:229-230 | a blank marker value strips to the empty string |
| `BuildCommand.BaseImage` | solum/tests/worker/handlers/test_shell.py:467-470 | the base image is `cedarish` exactly for an `auto` base image built as `qcow2`, and is passed through otherwise |
| `BuildCommand.Command` | solum/tests/worker/handlers/test_shell.py:453-487 | the build argv is [script, source url, name, tenant, base image, private key], the unit-test argv is [script, source url, private key, tenant, "", test command], and an unknown format pair is an error |
| `BuildCommand.ScenarioFromTable` | solum/tests/worker/handlers/test_shell.py:426-451 | a scenario whose formats resolve to its tree and variant gets that directory's script, and `cedarish` exactly for the `auto` VM build |
| `BuildCommand.ScenariosResolve` | solum/tests/worker/handlers/test_shell.py:426-487 | all five documented format pairs resolve to their tool directories, for both stages |
| `ShellWorker.KeyForLastRecord` | solum/tests/worker/handlers/test_shell.py:143-158 | the private key passed is the one recorded for the job's source url |
| `ShellWorker.KeyForNoRecord` | solum/tests/worker/handlers/test_shell.py:110-113 | with no record for the source url the private key argument is empty |
| `ShellWorker.MarkerValue` | solum/tests/worker/handlers/test_shell.py:96-97 | a line carries an image id exactly when it starts with `created_image_id=`, and the id read has no surrounding whitespace |
| `ShellWorker.LastMarkerOfLastLine` | solum/tests/worker/handlers/test_shell.py:96-97 | the image id read is that of the last marker line, whatever lines came before |
| `ShellWorker.BuiltImage` | solum/tests/worker/handlers/test_shell.py:229-230 | a created image id is never blank and has no surrounding whitespace |
| `ShellWorker.BuiltImageOfLastLine` | solum/tests/worker/handlers/test_shell.py:96-97 | an output ending in `created_image_id=<id>` created image `<id>` |
| `ShellWorker.BlankMarkerCreatesNothing` | solum/tests/worker/handlers/test_shell.py:229-230 | an output whose marker value is blank created no image |
| `ShellWorker.UnitTestRun` | solum/tests/worker/handlers/test_shell.py:256-312 | for a runnable job, exactly the unit-test argv runs and the assembly updates are [UNIT_TESTING], or [UNIT_TESTING, UNIT_TESTING_FAILED] on a nonzero exit; a missing source url is a KeyError and an unknown format pair an error, both before anything happens; there is never a job update or deploy |
| `ShellWorker.BuildRun` | solum/tests/worker/handlers/test_shell.py:90-122 | the build stage's report is consistent: the image only moves forward to a terminal state, and a deploy is requested exactly when it reached COMPLETE, for the job's assembly and the completed image |
| `ShellWorker.ImageBuild` | solum/tests/worker/handlers/test_shell.py:114-122 | after the build script runs, a created image gives exactly one deploy of that image to the job's assembly, and no image gives no deploy |
| `ShellWorker.Unittest` | solum/tests/worker/handlers/test_shell.py:256-312 | the `unittest` endpoint runs exactly the unit-test argv with the job's private key, and updates the assembly to [UNIT_TESTING], or [UNIT_TESTING, UNIT_TESTING_FAILED] on a nonzero exit; it never builds or deploys |
| `ShellWorker.UnittestIsBuildTestStage` | solum/tests/worker/handlers/test_shell.py:256-398 | with failing tests, the `unittest` endpoint and `build` leave the same trace |
| `ShellWorker.Build` | solum/tests/worker/handlers/test_shell.py:320-398 | the `build` endpoint's report is consistent; failing tests start no build, and without tests the assembly only goes BUILDING |
| `ShellWorker.BuildDeploysCreatedImage` | solum/tests/worker/handlers/test_shell.py:90-122 | without tests and with an image id in the output, the job updates are exactly [BUILDING, COMPLETE(id)], one build process runs, and exactly one deploy of that id is requested |
| `ShellWorker.BuildWithBlankImageFails` | solum/tests/worker/handlers/test_shell.py:224-250 | with a blank image id the job updates are exactly [BUILDING, ERROR "image not created"] and nothing is deployed |
| `ShellWorker.PassingTestsThenBuild` | solum/tests/worker/handlers/test_shell.py:320-365 | passing tests and an output ending in an image id give the assembly updates [UNIT_TESTING, BUILDING], the unit-test then the build argv, the job updates [BUILDING, COMPLETE(id)], and exactly one deploy of that image |
| `ShellWorker.PassingTestsTrace` | solum/tests/worker/handlers/test_shell.py:320-365 | with passing tests, `build` is the unit-test stage followed by the image build of the build script's output |
| `ShellWorker.FailingTestsStopBuild` | solum/tests/worker/handlers/test_shell.py:371-398 | failing tests give [UNIT_TESTING, UNIT_TESTING_FAILED], only the unit-test script runs, and there is no job update or deploy |
| `ShellWorker.PrivateKeySlot` | solum/tests/worker/handlers/test_shell.py:131-167 | the private key slot of both argvs is empty without `source_creds_ref`, and otherwise the key of the last record for the source url |
| `ShellWorker.UpdateAssemblyStatus` | solum/tests/worker/handlers/test_shell.py:408-422 | a None id makes no registry call; otherwise the assembly is fetched, given the status and saved once; no other assembly changes |
| `ShellWorker.UpdateIdempotent` | solum/tests/worker/handlers/test_shell.py:408-416 | setting the same status twice leaves the registry as setting it once |
| `ShellWorker.LastStatusWins` | solum/tests/worker/handlers/test_shell.py:360-362 | a stored assembly ends with the status of the last update naming it |
| `ShellWorker.OtherStatusesUntouched` | solum/tests/worker/handlers/test_shell.py:408-416 | updates for other assemblies leave an assembly's status unchanged |
| `ShellWorker.AssemblyStatusAfterBuild` | solum/tests/worker/handlers/test_shell.py:360-398 | after `build`, a stored assembly is UNIT_TESTING_FAILED when its tests failed and BUILDING otherwise |
| `NobuildWorker.Environment` | solum/worker/handlers/shell_nobuild.py:56-69 | the script environment holds only allow-listed and injected variables; an allow-listed one appears exactly when the worker has it, with its value; credentials and tenant come from the context |
| `NobuildWorker.EnvironmentIgnoresOthers` | solum/worker/handlers/shell_nobuild.py:58-61 | worker environments that agree on the allow-list give the same script environment |
| `NobuildWorker.StatusBody` | solum/tests/worker/handlers/test_shell.py:50-68 | a status call is pending, success or failure exactly as it is pending, has return code 0, or has a nonzero one |
| `NobuildWorker.BuildReading` | solum/worker/handlers/shell_nobuild.py:35-54 | a pending status goes first; the final status carries the tests' return code; READY is recorded exactly when that code is 0; without a truthy `test_cmd` the inherited `_run_unittest` runs no script and the code is 0 |
| `NobuildWorker.Build` | solum/worker/handlers/shell_nobuild.py:42-45 | as written: the status calls carry whatever `git_info` holds under `status_token`, and READY is recorded exactly when the tests pass |
| `NobuildWorker.BuildWithRepoToken` | solum/api/handlers/assembly_handler.py:118-128 | corrected: the status calls carry the `repo_token` the handler stored, and READY is recorded exactly when the tests pass |
| `NobuildWorker.TestsThenReady` | solum/worker/handlers/shell_nobuild.py:46-54 | with tests, the assembly updates are the shell worker's unit-test updates followed by READY exactly when they passed |
| `AssemblyHandler.Normalise` | solum/api/handlers/assembly_handler.py:99-140 | an artifact is accepted exactly when it has a name and a content href; the image takes the artifact's name, the given id and the caller's user and project, and the message carries that name and id and casts no `artifact_type` or `others`; the image is PENDING with `language_pack` or `auto`, `artifact_type` or the configured source format, and the configured image format; `git_info` is exactly source url, empty commit, repo token and no status url; a pending status is sent exactly when `unittest_cmd` is truthy |
| `AssemblyHandler.DispatchAll` | solum/api/handlers/assembly_handler.py:94-96 | the loop dispatches every artifact exactly when none fails, and never more than there are |
| `AssemblyHandler.DispatchedInOrder` | solum/api/handlers/assembly_handler.py:94-96 | request i comes from artifact i, and the loop stops at the first artifact that cannot be normalised, with its exception |
| `AssemblyHandler.Normalisations` | solum/api/handlers/assembly_handler.py:94-96 | each artifact is normalised on its own, under its own image id |
| `AssemblyHandler.OtherArtifacts` | solum/api/handlers/assembly_handler.py:94-96 | a plan whose `artifacts` is not a list dispatches nothing, and fails unless it is an empty string or mapping |
| `AssemblyHandler.StringsRefused` | solum/api/handlers/assembly_handler.py:95-105 | iterating strings stops at the first one, which cannot be subscripted by `name` |
| `AssemblyHandler.Create` | solum/api/handlers/assembly_handler.py:79-97 | the assembly is stored QUEUED, exactly as the request's fields with the given uuid, its `plan_id` and the context's user, project and user name, even when its plan is missing; every request carries the new assembly's id; request i normalises artifact i, up to the first failure |
| `AssemblyHandler.Delete` | solum/api/handlers/assembly_handler.py:69-77 | an unknown assembly is not found; otherwise DELETING is recorded before the destroy, which comes last |
| `PlanHandler.WithPublicKey` | solum/api/handlers/plan_handler.py:95 | the artifact's content gains `public_key`, and nothing else in the artifact changes |
| `PlanHandler.WantsKey` | solum/api/handlers/plan_handler.py:87-91 | an artifact asks for a key exactly when its content says `private` with a truthy value; string content that does not mention `private` is skipped; a scalar artifact raises |
| `PlanHandler.ProvisionAll` | solum/api/handlers/plan_handler.py:87-97 | the loop gets through exactly when every artifact is well formed, keeps the number of artifacts, and makes one key per private artifact |
| `PlanHandler.ProvisionStep` | solum/api/handlers/plan_handler.py:87-97 | a private first artifact takes the next key pair and puts its deploy key first; any other passes unchanged |
| `PlanHandler.ProvisionedArtifact` | solum/api/handlers/plan_handler.py:87-97 | artifact i keeps its content unless private; a private one gets the public half of its key pair, and deploy key number k (k = the private artifacts before it) is its href with the private half |
| `PlanHandler.NoPrivateNoKeys` | solum/api/handlers/plan_handler.py:87-91 | a plan without private artifacts provisions no key and changes no artifact |
| `PlanHandler.ProvisionPlan` | solum/api/handlers/plan_handler.py:87 | the loop accepts a string of artifacts, a mapping without a key mentioning `content`, or a list of well-formed artifacts; only a list provisions keys |
| `PlanHandler.StringsSkipped` | solum/api/handlers/plan_handler.py:87-91 | strings met by the loop get no key, and the loop gets through them exactly when none contains `content` |
| `PlanHandler.StringArtifactsSkipped` | solum/api/handlers/plan_handler.py:87-91 | walking a string of artifacts character by character skips every character |
| `PlanHandler.MappingArtifactsAsLoop` | solum/api/handlers/plan_handler.py:87-91 | walking a mapping's keys in any order agrees with what `ProvisionPlan` decides for it |
| `PlanHandler.StoreKeys` | solum/api/handlers/plan_handler.py:98-122 | the database keeps the payload as the handle; the local file keeps it under the plan uuid, which becomes the handle; barbican keeps it under the returned reference; other stores and files are untouched |
| `PlanHandler.StoreThenFetch` | solum/api/handlers/plan_handler.py:98-122 | whatever the store, the handle returned reads back exactly the keys stored |
| `PlanHandler.CreateParams` | solum/api/handlers/plan_handler.py:204-211 | user parameters are recorded exactly when truthy, and system parameters exactly when non-empty |
| `PlanHandler.DeleteParams` | solum/api/handlers/plan_handler.py:213-231 | without a record nothing changes; otherwise only that record goes, no secret is added, and a failure happens only when the record holds a deploy-key handle; a local-file handle missing from the file is a KeyError naming the handle |
| `PlanHandler.SysParams` | solum/api/handlers/plan_handler.py:124-125 | `REPO_DEPLOY_KEYS` is set exactly when there are keys and a non-empty handle |
| `PlanHandler.Create` | solum/api/handlers/plan_handler.py:77-132 | creation succeeds exactly when the key loop gets through; the stored plan has the new ids and owner, the document's `name` when it has one and none otherwise, the document's keys without `parameters`, its values, and the listed artifacts with their public keys; the parameter record holds the document's `parameters` when truthy and the handle of the kept keys; other plans are untouched |
| `PlanHandler.Record` | solum/api/handlers/plan_handler.py:98-131 | the stored raw content is the document without `parameters`, its artifact list replaced by the provisioned one; the name is the document's `name` when it has one; the parameter record holds the document's `parameters` when truthy and the handle the store returned for the provisioned keys; only the new plan is added |
| `PlanHandler.GetPlan` | solum/api/handlers/plan_handler.py:54-56 | a stored plan is returned as stored, and an unknown uuid is not found |
| `PlanHandler.Update` | solum/api/handlers/plan_handler.py:58-69 | an unknown plan is not found; every key of the document but `parameters` is merged into the raw content, the other keys keep their values, the name changes only when given, and no other plan, parameter or secret changes |
| `PlanHandler.UpdateIdempotent` | solum/api/handlers/plan_handler.py:61-66 | updating twice with the same document equals updating once |
| `PlanHandler.Delete` | solum/api/handlers/plan_handler.py:71-75 | an unknown plan is not found; a failing parameter deletion changes nothing and passes its exception on; otherwise the parameters go, and the plan too unless the destroy fails; no other plan changes |
| `PlanHandler.DeleteAddedParams` | solum/api/handlers/plan_handler.py:213-231 | deleting a newly added parameter record restores the earlier records and removes exactly the secret its handle names |
| `PlanHandler.RecordedParamsDeleted` | solum/api/handlers/plan_handler.py:204-231 | deleting the parameters of a freshly recorded plan removes them and the secret they kept, and nothing else |
| `PlanHandler.CreateThenDelete` | solum/api/handlers/plan_handler.py:71-132 | deleting a freshly created plan gives back the state before it |
| `PlanHandler.NoParametersInRawContent` | solum/api/handlers/plan_handler.py:61-62 | neither create nor a later update puts `parameters` into the raw content |
| `PlanHandler.RecordedDeployKeys` | solum/api/handlers/plan_handler.py:98-125 | `REPO_DEPLOY_KEYS` is recorded exactly when there are keys and the store returned a non-empty handle, and that handle reads back the keys |
| `PlanHandler.DeployKeysRecorded` | solum/api/handlers/plan_handler.py:87-125 | `REPO_DEPLOY_KEYS` is recorded exactly when the plan lists a private artifact and the store returned a non-empty handle, and it reads back the plan's deploy keys |
| `PlanController.InitPlanByVersion` | solum/api/controllers/v1/plan.py:36-45 | only versions 1 and "1" are accepted; a missing or None version is "Version attribute is missing in Plan"; any other is "Plan version <v> is invalid." |
| `PlanController.ParseBody` | solum/api/controllers/v1/plan.py:112-120 | an absent or empty body is a bad request; a body the loader refuses is a bad request with the loader's message; otherwise the loaded document |
| `PlanController.EmptyBodyNeverLoaded` | solum/api/controllers/v1/plan.py:114-115 | an absent or empty body is refused whatever the loader would do |
| `PlanController.RequestDocument` | solum/api/controllers/v1/plan.py:117-123 | a document reaches the handler exactly when the body parsed and its version was accepted; a body error or a version error is passed on as it is |
| `PlanController.YamlContent` | solum/api/controllers/v1/plan.py:48-52 | the rendered plan carries uri `<host>/v1/plans/<uuid>` and keeps every other refined field |
| `PlanController.Post` | solum/api/controllers/v1/plan.py:112-125 | a request or creation error is passed on; otherwise the state is the handler's creation from the request document, and the created plan is rendered as stored, with its uri |
| `PlanController.GetOne` | solum/api/controllers/v1/plan.py:64-69 | a stored plan is rendered by `yaml_content`, with its uri, and an unknown one is not found |
| `PlanController.PostThenGet` | solum/api/controllers/v1/plan.py:64-125 | reading a plan right after posting it shows what the post returned |
| `PlanController.Put` | solum/api/controllers/v1/plan.py:73-86 | an update succeeds exactly when the document is accepted and the plan is stored; a request error is passed on and an unknown plan is not found; the state is the handler's update, and the updated plan is rendered |
| `PlanController.PutThenGet` | solum/api/controllers/v1/plan.py:64-86 | reading a plan right after updating it shows what the update returned |
| `PlanController.DeleteError` | solum/api/controllers/v1/plan.py:93-98 | a reference error becomes "plan still referenced", another database error a generic Solum exception, and anything else passes |
| `PlanController.Delete` | solum/api/controllers/v1/plan.py:90-98 | the handler's deletion with its exception translated, and the same resulting state |
| `PlanController.ReferencedPlanStays` | solum/api/controllers/v1/plan.py:93-96 | a plan still referenced is reported as such and stays, while its parameters are already gone |
| `PlanController.GetAll` | solum/api/controllers/v1/plan.py:129-136 | the listing has no more entries than the stored plans |
| `PlanController.GetAllListsExactly` | solum/api/controllers/v1/plan.py:132-134 | every present plan with non-empty raw content is listed, and everything listed is such a plan |
| `PlanController.Lookup` | solum/api/controllers/v1/plan.py:104-108 | the plan id is passed on, and the remainder loses its last segment exactly when that segment is empty |
| `Routing.DropTrailingEmpty` | solum/api/controllers/v1/plan.py:106-107 | one trailing empty segment is dropped exactly when there is one, and the rest of the remainder is kept |
| `Routing.DropsOnlyOne` | solum/api/controllers/v1/plan.py:106-107 | of two trailing empty segments only one is dropped |
| `Routing.TrailingSlashIgnored` | solum/api/controllers/v1/workflow.py:63-65 | a trailing slash does not change where a path leads |
| `WorkflowModel.Attribute` | solum/api/controllers/v1/datamodel/workflow.py:29-90 | `hasattr` holds exactly for the attributes and methods the Workflow class defines, and a method name gives its bound method |
| `WorkflowModel.AsDictFromKeys` | solum/api/controllers/v1/datamodel/workflow.py:66-70 | the dict holds exactly the requested names the object has and has not left unset, bound methods included, with their values |
| `WorkflowModel.Override` | solum/api/controllers/v1/datamodel/workflow.py:84-89 | each listed attribute that is set and not None replaces the base value; everything else of the base stays |
| `WorkflowModel.AsDictFor` | solum/api/controllers/v1/datamodel/workflow.py:72-90 | the dict holds what the object has, and has not left unset, for the names the database model defines (valid keys only), and the six workflow fields holding a value other than None |
| `WorkflowModel.AsDictIsLoop` | solum/api/controllers/v1/datamodel/workflow.py:72-90 | that description agrees with the method's steps: `as_dict_from_keys` over the valid names, then the override loop |
| `WorkflowModel.NumberedUri` | solum/api/controllers/v1/datamodel/workflow.py:62-63 | workflow number n ends its uri with the decimal digits of n |
| `WorkflowModel.FromDbModel` | solum/api/controllers/v1/datamodel/workflow.py:57-64 | the type is the table name, the uri is `<host>/v1/apps/<app_id>/workflows/<wf_id>`, and every other declared column is set exactly when the row has it |
| `WorkflowModel.RowRoundTrip` | solum/api/controllers/v1/datamodel/workflow.py:57-90 | a column the model declares, or a workflow field with a value, survives the trip through the API type and back |
| `WorkflowModel.DeclaredKept` | solum/api/controllers/v1/datamodel/workflow.py:72-75 | against the Workflow type itself, every set attribute is kept |
| `WorkflowModel.ClassMethodsReturned` | solum/api/controllers/v1/datamodel/workflow.py:48-75 | against the Workflow type itself, the dict also holds the bound methods `sample`, `from_db_model` and `as_dict_from_keys`, and not `as_dict` |
| `WorkflowModel.NullUndeclaredDropped` | solum/api/controllers/v1/datamodel/workflow.py:84-89 | a None column the database model does not declare is lost on the way back |
| `WorkflowController.CreateRow` | solum/api/handlers/workflow_handler.py:38-56 | a row is made exactly when all five workflow fields are given, a missing one raising KeyError in the order app_id, wf_id, source, config, actions; the row has a fresh id, the owner, `deleted` false and the five fields |
| `WorkflowController.Store` | solum/api/controllers/v1/workflow.py:90-91 | storing succeeds exactly when all five fields are set; the row carries them and is shown with its uri |
| `WorkflowController.WorkflowFieldsKept` | solum/api/controllers/v1/workflow.py:90 | the dict the handler receives holds each workflow field exactly when it is set |
| `WorkflowController.Post` | solum/api/controllers/v1/workflow.py:67-91 | no data is a bad request and an unknown app is not found; the new row takes app id, config and source from the app, is numbered one past the app's existing workflows, and keeps the request's actions |
| `WorkflowController.GetAll` | solum/api/controllers/v1/workflow.py:94-104 | an unknown app is not found; otherwise row i is shown as `from_db_model` of row i, with its uri |
| `WorkflowController.PostThenList` | solum/api/controllers/v1/workflow.py:79-91 | a created workflow is listed after the app's earlier ones exactly as post showed it |
| `WorkflowController.NumberReused` | solum/api/controllers/v1/workflow.py:86-88 | numbering counts rows, so after a deletion a new workflow can take the number of an existing one |
| `WorkflowController.GetOne` | solum/api/controllers/v1/workflow.py:40-51 | the app must exist, then the workflow is read by uuid and shown |
| `WorkflowController.GetIgnoresOwner` | solum/api/controllers/v1/workflow.py:45-48 | the workflow shown does not depend on which existing app the path names |
| `WorkflowController.Lookup` | solum/api/controllers/v1/workflow.py:61-65 | the app id and workflow uuid are passed on, and the remainder loses its last segment exactly when that segment is empty |
| `Pipeline.DispatchedJobRunnable` | solum/worker/api.py:29-38 | under the default options, every artifact the handler dispatches is a job the worker can run, unless its `artifact_type` has no tool |
| `Pipeline.Deliver` | solum/worker/api.py:29-38 | a cast build message reaches a `build` method exactly when it has a parameter for every keyword `perform_action` passes, whatever order the dispatcher expands them in; otherwise TypeError names a keyword it lacks; a delivered job carries the message's fields and ignores `artifact_type`, `run_cmd` and `others` |
| `Pipeline.NobuildRefusesCast` | solum/worker/handlers/shell_nobuild.py:35-37 | as written, the no-build worker's `build` refuses every cast build message, in any keyword order, with a TypeError naming `artifact_type`, `run_cmd` or `others`; in `perform_action`'s own order, `artifact_type` |
| `Pipeline.ExtraKeywordsAccepted` | solum/worker/api.py:33-38 | a `build` that also accepts `artifact_type`, `run_cmd` and `others` receives exactly the job the message describes, in any keyword order |
| `Pipeline.DefaultArtifactBuildsCedarish` | solum/api/handlers/assembly_handler.py:104-114 | an artifact without `language_pack` or `artifact_type` is built by the `lp-cedarish/vm-slug` script on the `cedarish` base image |
| `Pipeline.TokenLostAsWritten` | solum/worker/handlers/shell_nobuild.py:42-45 | as written, the no-build worker's status calls carry no token, and so differ from the artifact's `repo_token` whenever it has one |
| `Pipeline.TokenKeptWithRepoToken` | solum/api/handlers/assembly_handler.py:118-128 | reading `repo_token`, the worker's status calls carry the artifact's token, the same as the handler's pending call |

## Left out

- Processes, HTTP and the message bus. Running a script, posting a status
  callback and casting a message are left out. The model keeps the argv, the
  call and the message, and takes the exit code and output as inputs.
- Cryptography and encoding. RSA key generation and export, and base64 of the
  payload's text, are left out. Key pairs come from a generator parameter, and
  the payload is the deploy-key list.
- Storage internals. `shelve`, `os.makedirs` and the barbican client are left
  out; the stores are maps. A failing `makedirs` or barbican call is not modelled.
- `PlanHandler.trigger_workflow` and `PlanHandler._build_artifact`
  (solum/api/handlers/plan_handler.py:138-202) are left out. They cannot run
  as written: `assem` is undefined, `repo_utils`, `exception` and
  `IMAGE_STATES` are not imported, and a `pdb.set_trace()` sits at line 190.
- Thin registry calls are left out. These are `AssemblyHandler.get`, `update`,
  `get_all` and `get_all_by_plan_id`, `PlanHandler.get_all`, and the workflow
  handler's `delete` and `get_all_by_id`. Their results are inputs of the
  operations that use them.
- Framework glue is left out: Pecan/WSME decorators, response status codes,
  YAML dumping, `check_request_for_https`, and the exception-to-HTTP wrappers.
  The YAML loader, the plan datamodel and `refined_content` are parameters.
- The plan datamodel, `objects` and `shell.py` are not part of this model.
  The worker is modelled from its tests.
- Configuration read at import time (`system_param_store`, `image_format`,
  `source_format`, `task_log_dir`) is left out. Each is a parameter,
  with the defaults `qcow2` and `heroku` as `AssemblyHandler.DefaultConfig`.
- Concurrency is left out. Casts are fire-and-forget, and two concurrent
  workflow posts can take the same `wf_id` (solum/api/controllers/v1/workflow.py:86-87).
  The model is sequential.
- Timestamps (`created_at`, `updated_at`), generated uuids and the worker's
  `BUILD_ID` are inputs.
- Text.Strip: only the ASCII whitespace `str.strip()` removes is modelled, not
  the Unicode separators, because the marker values are ASCII.
- Values.Format: lists, mappings and bound methods render as `[...]`, `{...}`
  and `<bound method name>` rather than their full Python repr. Only scalars, the versions and workflow numbers, are
  rendered by the modelled code.
- NobuildWorker.StatusBody: the callback's `target_url` and headers are not
  modelled, because they are built by the HTTP layer.
- ShellWorker.Build: the `env` and `stdout` arguments of each process are not
  in the trace, because the tests compare them to a mocked environment.
- Pipeline.JobOf: the `artifact_type`, `run_cmd` and `others` of a message
  are dropped from the job. `solum/worker/handlers/shell.py` is not part of
  this model, so whether the shell worker's `build` accepts them is not
  modelled; the no-build worker's refusal is a finding.
- Pipeline.Deliver: the order in which the messaging library expands the
  keywords is a parameter, because that library is not part of this model.
  A TypeError for a required parameter that the cast does not supply is
  also not modelled, because every modelled `build` gets all of its
  required parameters from the cast.
- YAML floats and non-string mapping keys are left out: `Value` has neither.
  So `version: 1.0`, which `init_plan_by_version` refuses as "Plan version
  1.0 is invalid.", cannot be written, and neither can an artifact mapping
  keyed by numbers.
- WSME type validation is left out. Assigning a value of the wrong type to a
  typed Workflow attribute, or `cls(**json)` in `from_db_model`, can raise
  in WSME; the model accepts any value.
- WorkflowModel.AsDictFor: the attributes the WSME library itself adds to
  the Workflow class are not modelled, because that library is not part of
  this model. Only the names the class body defines are.
- Aliased artifacts are left out. `public_key` is written into the artifact
  in place (solum/api/handlers/plan_handler.py:95), so with YAML aliases
  two artifacts that share one mapping would both see it. The model's
  documents are values without sharing.
- PlanController.GetAll: its own contract only bounds the listing's length;
  which plans are listed is stated by `PlanController.GetAllListsExactly`.
- PlanHandler.DeleteParams: a local-file handle is deleted by its UTF-8
  encoding in the source. The model deletes the handle itself, since the file
  is keyed by the same text. An inline handle under the local-file store,
  which the handler never records, fails with a KeyError naming
  `REPO_DEPLOY_KEYS`, because the model does not render the payload as text.

## Findings

| source | as written | input that shows it | evidently intended | confidence | as-written member | corrected member |
|---|---|---|---|---|---|---|
| solum/worker/handlers/shell_nobuild.py:43 | the no-build worker reads its status token from `git_info['status_token']`, but the assembly handler builds `git_info` with the key `repo_token` (solum/api/handlers/assembly_handler.py:120-125), so the token never arrives (`Pipeline.TokenLostAsWritten`) | an artifact with `repo_token: abc` and a `unittest_cmd`, whose job reaches the no-build worker's `build`: the handler's pending call carries `abc`, the worker's two status calls carry None. As written, the cast message does not reach that `build` at all (next row), so this shows once the keyword mismatch is fixed | the worker reads the token the handler stored, under `repo_token` (`Pipeline.TokenKeptWithRepoToken`); renaming the handler's key to `status_token`, as the worker's own tests use (solum/tests/worker/handlers/test_shell.py:40), would be an equally good fix | not executed; medium: the key mismatch is certain, but it only matters when a status url is passed, which `AssemblyHandler.create` never does | NobuildWorker.Build | NobuildWorker.BuildWithRepoToken |
| solum/worker/handlers/shell_nobuild.py:35-37 | the no-build worker's `build` has no `artifact_type`, `run_cmd` or `others` parameter, but `perform_action` always passes all three by keyword (solum/worker/api.py:33-38), so dispatching the cast raises TypeError before anything runs | any build message `AssemblyHandler.create` casts, delivered to the no-build worker: a TypeError naming `artifact_type`, `run_cmd` or `others`, depending on the order the dispatcher expands the keywords in (`Pipeline.NobuildRefusesCast`) | `build` accepts those keywords and ignores them, and then receives exactly the message's job (`Pipeline.ExtraKeywordsAccepted`) | not executed; medium: the signatures are in the text, but the dispatcher that calls `build(ctxt, **kwargs)` belongs to the messaging library, which is not part of this model | Pipeline.NobuildRefusesCast | Pipeline.ExtraKeywordsAccepted |

=== FILE: assembly_handler.dfy ===
/** The assembly handler: a new assembly is stored QUEUED, and each artifact
    of its plan becomes one PENDING image and one build message cast to the
    workers, in artifact order. Deleting an assembly marks it DELETING and
    then asks the deployer to destroy it. */
module AssemblyHandler {
  import opened Values
  import opened Outcomes
  import opened Contexts
  import opened Messages
  import I = ImageStates
  import A = AssemblyStates

  /** The API service's `image_format` and `source_format` options. */
  datatype ApiConfig = ApiConfig(imageFormat: Value, sourceFormat: Value)

  /** The options' defaults. */
  const DefaultConfig: ApiConfig := ApiConfig(Str("qcow2"), Str("heroku"))

  /** A stored assembly: the request's fields, and the ones the handler sets. */
  datatype AssemblyRecord = AssemblyRecord(
    id: nat,
    uuid: string,
    fields: Document,
    planId: Value,
    userId: string,
    projectId: string,
    userName: string,
    status: A.AssemblyState)

  /** A stored image: one build attempt of one artifact. */
  datatype ImageRecord = ImageRecord(
    id: nat,
    name: Value,
    sourceUri: Value,
    baseImageId: Value,
    sourceFormat: Value,
    imageFormat: Value,
    userId: string,
    projectId: string,
    state: I.ImageState)

  /** What one artifact becomes: its image, the pending status call when it
      has a test command, and the build message. */
  datatype BuildRequest = BuildRequest(image: ImageRecord, pending: Option<StatusCall>, message: Message)

  /** `_build_artifact` with the default verb: the image's fields come from
      the artifact with `auto` and the configured defaults, `git_info`
      records the source, an empty commit and no status url, and the message
      carries the image, the assembly and the artifact's commands. `imageId`
      is the id the new image is stored under. */
  function Normalise(cfg: ApiConfig, ctx: Context, assemblyId: nat, artifact: Value, imageId: nat): (r: Result<BuildRequest>)
    ensures r.Ok? <==> (&& artifact.Dict? && "name" in artifact.fields && "content" in artifact.fields
                        && artifact.fields["content"].Dict? && "href" in artifact.fields["content"].fields)
    ensures r.Ok? ==> var fields := artifact.fields; var m := r.value.message; var img := r.value.image;
      && img.id == imageId && img.name == fields["name"]
      && img.userId == ctx.user && img.projectId == ctx.tenant
      && img.state == I.Pending
      && img.baseImageId == GetOr(fields, "language_pack", Str("auto"))
      && img.sourceFormat == GetOr(fields, "artifact_type", cfg.sourceFormat)
      && img.imageFormat == cfg.imageFormat
      && img.sourceUri == fields["content"].fields["href"]
      && m.verb == "build" && m.buildId == Int(imageId) && m.assemblyId == Int(assemblyId)
      && m.name == img.name && m.baseImageId == img.baseImageId
      && m.sourceFormat == img.sourceFormat && m.imageFormat == img.imageFormat
      && m.testCmd == Get(fields, "unittest_cmd") && m.runCmd == Get(fields, "run_cmd")
      && m.artifactType == Null && m.others == Null
      && m.gitInfo == map["source_url" := img.sourceUri, "commit_sha" := Str(""),
                          "repo_token" := Get(fields, "repo_token"), "status_url" := Null]
      && (r.value.pending.Some? <==> Truthy(m.testCmd))
      && (r.value.pending.Some? ==>
            r.value.pending.value == StatusCall(0, Null, Get(fields, "repo_token"), true))
  {
    var fields :- AsDict(artifact, "artifact");
    var name :- Index(fields, "name");
    var contentValue :- Index(fields, "content");
    var content :- AsDict(contentValue, "content");
    var href :- Index(content, "href");
    var image := ImageRecord(imageId, name, href, GetOr(fields, "language_pack", Str("auto")),
                             GetOr(fields, "artifact_type", cfg.sourceFormat), cfg.imageFormat,
                             ctx.user, ctx.tenant, I.Pending);
    var testCmd := Get(fields, "unittest_cmd");
    var repoToken := Get(fields, "repo_token");
    var gitInfo := map["source_url" := href, "commit_sha" := Str(""),
                       "repo_token" := repoToken, "status_url" := Null];
    var pending := if Truthy(testCmd) then Some(StatusCall(0, Null, repoToken, true)) else None;
    Ok(BuildRequest(image, pending,
                    Message("build", Int(imageId), gitInfo, image.name, image.baseImageId,
                            image.sourceFormat, image.imageFormat, Int(assemblyId), testCmd,
                            Null, Get(fields, "run_cmd"), Null)))
  }

  /** The artifact loop's outcome: the build requests made, in order, and
      the exception that stopped the loop, if any. */
  datatype Dispatch = Dispatch(requests: seq<BuildRequest>, failure: Option<Error>)

  /** The loop over the artifacts' normalisations: every request up to the
      first artifact that cannot be normalised. */
  function DispatchAll(outcomes: seq<Result<BuildRequest>>): (r: Dispatch)
    ensures |r.requests| <= |outcomes|
    ensures r.failure.None? <==> |r.requests| == |outcomes|
    decreases |outcomes|
  {
    if |outcomes| == 0 then Dispatch([], None)
    else
      match outcomes[0]
      case Err(e) => Dispatch([], Some(e))
      case Ok(req) =>
        var rest := DispatchAll(outcomes[1..]);
        Dispatch([req] + rest.requests, rest.failure)
  }

  /** Request `i` is the outcome of artifact `i`, and the loop stops exactly
      at the first artifact that cannot be normalised, with its exception. */
  lemma {:induction false} DispatchedInOrder(outcomes: seq<Result<BuildRequest>>)
    ensures var r := DispatchAll(outcomes);
      && (forall i :: 0 <= i < |r.requests| ==> outcomes[i] == Ok(r.requests[i]))
      && (r.failure.Some? ==> outcomes[|r.requests|] == Err(r.failure.value))
    decreases |outcomes|
  {
    if |outcomes| > 0 && outcomes[0].Ok? {
      var tail := outcomes[1..];
      DispatchedInOrder(tail);
      var r := DispatchAll(outcomes);
      var rest := DispatchAll(tail);
      forall i | 1 <= i < |r.requests| ensures outcomes[i] == Ok(r.requests[i]) {
        assert r.requests[i] == rest.requests[i - 1];
        assert outcomes[i] == tail[i - 1];
      }
      if r.failure.Some? {
        assert outcomes[|r.requests|] == tail[|rest.requests|];
      }
    }
  }

  /** The normalisation of each artifact of a plan; image `k` of the loop is
      stored under `imageIds(k)`. */
  function Normalisations(cfg: ApiConfig, ctx: Context, assemblyId: nat, artifacts: seq<Value>,
                    imageIds: nat -> nat): (r: seq<Result<BuildRequest>>)
    ensures |r| == |artifacts|
    ensures forall i :: 0 <= i < |r| ==> r[i] == Normalise(cfg, ctx, assemblyId, artifacts[i], imageIds(i))
  {
    seq(|artifacts|, i requires 0 <= i < |artifacts| => Normalise(cfg, ctx, assemblyId, artifacts[i], imageIds(i)))
  }

  /** The artifacts a plan's raw content lists: `get('artifacts', [])`. */
  function PlanArtifacts(rawContent: Document): Value {
    GetOr(rawContent, "artifacts", List([]))
  }

  /** What `create` does: the assembly it stores, the build requests it
      makes, and the exception that stopped it, if any. */
  datatype Creation = Creation(assembly: AssemblyRecord, requests: seq<BuildRequest>, failure: Option<Error>)

  /** `create`: store the assembly QUEUED under `newId`, look up its plan
      (plan raw content by plan id in `plans`) and dispatch every artifact
      the plan lists. The assembly is stored before the plan is read, so it
      stays even when the plan is missing. */
  function Create(cfg: ApiConfig, ctx: Context, data: Document, uuid: string, newId: nat,
                  plans: map<Value, Document>, imageIds: nat -> nat): (r: Creation)
    ensures r.assembly.status == A.Queued && r.assembly.id == newId && r.assembly.fields == data
    ensures r.assembly.userId == ctx.user && r.assembly.projectId == ctx.tenant
    ensures r.assembly == AssemblyRecord(newId, uuid, data, Get(data, "plan_id"), ctx.user, ctx.tenant,
                                         ctx.userName, A.Queued)
    ensures Get(data, "plan_id") !in plans ==> r.requests == [] && r.failure == Some(NotFound("plan"))
    ensures forall i :: 0 <= i < |r.requests| ==> r.requests[i].message.assemblyId == Int(newId)
    ensures Get(data, "plan_id") in plans && !PlanArtifacts(plans[Get(data, "plan_id")]).List? ==>
      r.requests == []
      && (r.failure.None? <==> (PlanArtifacts(plans[Get(data, "plan_id")]) == Str("")
                               || PlanArtifacts(plans[Get(data, "plan_id")]) == Dict(map[])))
    ensures Get(data, "plan_id") in plans && PlanArtifacts(plans[Get(data, "plan_id")]).List? ==>
      var items := PlanArtifacts(plans[Get(data, "plan_id")]).items;
      && |r.requests| <= |items|
      && (r.failure.None? <==> |r.requests| == |items|)
      && (forall i :: 0 <= i < |r.requests| ==>
            Normalise(cfg, ctx, newId, items[i], imageIds(i)) == Ok(r.requests[i]))
      && (r.failure.Some? ==>
            Normalise(cfg, ctx, newId, items[|r.requests|], imageIds(|r.requests|)) == Err(r.failure.value))
  {
    var planId := Get(data, "plan_id");
    var assembly := AssemblyRecord(newId, uuid, data, planId, ctx.user, ctx.tenant, ctx.userName, A.Queued);
    if planId !in plans then Creation(assembly, [], Some(NotFound("plan")))
    else
      match PlanArtifacts(plans[planId])
      case List(items) =>
        var outcomes := Normalisations(cfg, ctx, newId, items, imageIds);
        var d := DispatchAll(outcomes);
        DispatchedInOrder(outcomes);
        Creation(assembly, d.requests, d.failure)
      case other =>
        var d := OtherArtifacts(other);
        Creation(assembly, d.requests, d.failure)
  }

  /** The artifact loop over anything but a list: a string or a mapping
      yields strings, the first of which cannot be subscripted; anything else
      is not iterable. */
  function OtherArtifacts(artifacts: Value): (d: Dispatch)
    requires !artifacts.List?
    ensures d.requests == []
    ensures d.failure.None? <==> artifacts == Str("") || artifacts == Dict(map[])
  {
    match artifacts
    case Str(s) => Dispatch([], if |s| == 0 then None else Some(TypeError("artifact")))
    case Dict(fields) => Dispatch([], if |fields| == 0 then None else Some(TypeError("artifact")))
    case _ => Dispatch([], Some(TypeError("artifacts")))
  }

  /** Strings met by the artifact loop cannot be subscripted: the first one
      stops the loop before any request is made. This is what iterating a
      string (its characters) or a mapping (its keys) dispatches. */
  lemma StringsRefused(cfg: ApiConfig, ctx: Context, assemblyId: nat, ks: seq<string>, imageIds: nat -> nat)
    ensures DispatchAll(Normalisations(cfg, ctx, assemblyId, Strs(ks), imageIds))
      == Dispatch([], if |ks| == 0 then None else Some(TypeError("artifact")))
  {
    var outcomes := Normalisations(cfg, ctx, assemblyId, Strs(ks), imageIds);
    if |ks| > 0 {
      assert outcomes[0] == Err(TypeError("artifact"));
    }
  }

  // ---------------------------------------------------------------------
  // Deletion

  /** A call `delete` makes: the conductor's assembly update, or the
      deployer's destroy. */
  datatype TeardownCall = MarkStatus(assemblyId: nat, status: A.AssemblyState) | Destroy(assemblyId: nat)

  /** `delete`: look the assembly up by uuid, record DELETING through the
      conductor, then ask the deployer to destroy it. */
  function Delete(assemblies: map<string, AssemblyRecord>, uuid: string): (r: Result<seq<TeardownCall>>)
    ensures r.Ok? <==> uuid in assemblies
    ensures r.Err? ==> r.error == NotFound("assembly")
    ensures r.Ok? ==> |r.value| == 2 && r.value[|r.value| - 1] == Destroy(assemblies[uuid].id)
    ensures r.Ok? ==> forall i :: 0 <= i < |r.value| && r.value[i].Destroy? ==>
      exists j :: 0 <= j < i && r.value[j] == MarkStatus(r.value[i].assemblyId, A.Deleting)
  {
    if uuid !in assemblies then Err(NotFound("assembly"))
    else
      var id := assemblies[uuid].id;
      var calls := [MarkStatus(id, A.Deleting), Destroy(id)];
      assert calls[0] == MarkStatus(calls[1].assemblyId, A.Deleting);
      Ok(calls)
  }
}

=== FILE: build_command.dfy ===
/** The command resolver of the shell worker: which tool script builds or
    unit-tests an artifact, and the positional arguments it is given. The
    script lives under `<project>/contrib/<tool tree>/<image variant>/`, the
    tool tree chosen by the source format and the variant by the image
    format. */
module BuildCommand {
  import opened Values
  import opened Outcomes

  /** The two worker stages that run a tool script. */
  datatype Stage = BuildStage | UnittestStage

  /** The tool tree for a source format, if the worker knows one. */
  function ToolTree(sourceFormat: Value): Option<string> {
    if sourceFormat == Str("heroku") then Some("lp-cedarish")
    else if sourceFormat == Str("dockerfile") then Some("lp-dockerfile")
    else if sourceFormat == Str("dib") then Some("diskimage-builder")
    else if sourceFormat == Str("chef") then Some("lp-chef")
    else None
  }

  /** The variant directory for an image format, if the worker knows one. */
  function ImageVariant(imageFormat: Value): Option<string> {
    if imageFormat == Str("docker") then Some("docker")
    else if imageFormat == Str("qcow2") then Some("vm-slug")
    else None
  }

  /** The script name of a stage. */
  function ScriptName(stage: Stage): string {
    match stage
    case BuildStage => "build-app"
    case UnittestStage => "unittest-app"
  }

  /** `<tree>/<variant>/<script>`, the part of the path the format pair and
      the stage decide. */
  function ToolSuffix(tree: string, variant: string, stage: Stage): string {
    tree + "/" + variant + "/" + ScriptName(stage)
  }

  /** The effective base image: a VM build of an `auto` base image uses the
      `cedarish` image; every other base image is passed through. */
  function BaseImage(baseImageId: Value, imageFormat: Value): (r: Value)
    ensures baseImageId == Str("auto") && imageFormat == Str("qcow2") ==> r == Str("cedarish")
    ensures !(baseImageId == Str("auto") && imageFormat == Str("qcow2")) ==> r == baseImageId
  {
    if baseImageId == Str("auto") && imageFormat == Str("qcow2") then Str("cedarish")
    else baseImageId
  }

  /** `_get_build_command`: the argument vector of the tool script.
      Build: [script, source url, artifact name, tenant, base image, private key].
      Unit test: [script, source url, private key, tenant, "", test command].
      A format pair with no tool is a configuration error. */
  function Command(projectDir: string, stage: Stage, sourceUrl: Value, name: Value,
                   tenant: string, baseImageId: Value, sourceFormat: Value,
                   imageFormat: Value, privateKey: string, testCmd: Value): (r: Result<seq<Value>>)
    ensures r.Ok? <==> ToolTree(sourceFormat).Some? && ImageVariant(imageFormat).Some?
    ensures r.Err? ==> r.error == UnknownFormat(sourceFormat, imageFormat)
    ensures r.Ok? ==> |r.value| == 6
    ensures r.Ok? ==> r.value[0] == Str(projectDir + "/contrib/"
      + ToolSuffix(ToolTree(sourceFormat).value, ImageVariant(imageFormat).value, stage))
    ensures r.Ok? ==> r.value[1] == sourceUrl && r.value[3] == Str(tenant)
    ensures r.Ok? && stage == BuildStage ==>
      r.value[2] == name && r.value[4] == BaseImage(baseImageId, imageFormat)
      && r.value[5] == Str(privateKey)
    ensures r.Ok? && stage == UnittestStage ==>
      r.value[2] == Str(privateKey) && r.value[4] == Str("") && r.value[5] == testCmd
  {
    match (ToolTree(sourceFormat), ImageVariant(imageFormat))
    case (Some(tree), Some(variant)) =>
      var script := Str(projectDir + "/contrib/" + ToolSuffix(tree, variant, stage));
      (match stage
       case BuildStage =>
         Ok([script, sourceUrl, name, Str(tenant), BaseImage(baseImageId, imageFormat), Str(privateKey)])
       case UnittestStage =>
         Ok([script, sourceUrl, Str(privateKey), Str(tenant), Str(""), testCmd]))
    case _ => Err(UnknownFormat(sourceFormat, imageFormat))
  }

  /** One row of the worker's resolver table: a format pair and base image,
      and the tool directory expected for it, `<tree>/<variant>`. */
  datatype Scenario = Scenario(sourceFormat: string, imageFormat: string,
                               baseImageId: string, tree: string, variant: string)

  /** The five format pairs the worker documents, with their tool trees. */
  const Scenarios: seq<Scenario> := [
    Scenario("heroku", "docker", "auto", "lp-cedarish", "docker"),
    Scenario("heroku", "qcow2", "auto", "lp-cedarish", "vm-slug"),
    Scenario("dockerfile", "docker", "auto", "lp-dockerfile", "docker"),
    Scenario("dib", "qcow2", "xyz", "diskimage-builder", "vm-slug"),
    Scenario("chef", "docker", "xyz", "lp-chef", "docker")
  ]

  /** What the worker's tests expect of one scenario: the script of its tool
      directory, and a `cedarish` base image exactly for the `auto` VM build. */
  predicate ScenarioHolds(projectDir: string, tenant: string, stage: Stage, sc: Scenario) {
    var r := Command(projectDir, stage, Str("http://example.com/a.git"), Str("testa"),
                     tenant, Str(sc.baseImageId), Str(sc.sourceFormat),
                     Str(sc.imageFormat), "", Str("pep8"));
    && r.Ok?
    && r.value[0] == Str(projectDir + "/contrib/" + sc.tree + "/" + sc.variant + "/" + ScriptName(stage))
    && (stage == BuildStage ==>
          (r.value[4] == Str("cedarish") <==> sc.baseImageId == "auto" && sc.imageFormat == "qcow2"))
  }

  /** A scenario holds as soon as its tool directory is the tree and variant
      its formats resolve to. */
  lemma ScenarioFromTable(projectDir: string, tenant: string, stage: Stage, sc: Scenario)
    requires ToolTree(Str(sc.sourceFormat)) == Some(sc.tree)
    requires ImageVariant(Str(sc.imageFormat)) == Some(sc.variant)
    requires sc.baseImageId != "cedarish"
    ensures ScenarioHolds(projectDir, tenant, stage, sc)
  {
    var r := Command(projectDir, stage, Str("http://example.com/a.git"), Str("testa"),
                     tenant, Str(sc.baseImageId), Str(sc.sourceFormat),
                     Str(sc.imageFormat), "", Str("pep8"));
    ScriptPath(projectDir, sc.tree, sc.variant, stage);
    if stage == BuildStage {
      var base := BaseImage(Str(sc.baseImageId), Str(sc.imageFormat));
      assert r.value[4] == base;
      assert base == Str("cedarish") <==> sc.baseImageId == "auto" && sc.imageFormat == "qcow2";
    }
  }

  /** The script of a tool directory, as one path. */
  lemma ScriptPath(projectDir: string, tree: string, variant: string, stage: Stage)
    ensures projectDir + "/contrib/" + ToolSuffix(tree, variant, stage)
      == projectDir + "/contrib/" + tree + "/" + variant + "/" + ScriptName(stage)
  {
    PathJoin(projectDir + "/contrib/", tree + "/" + variant, ScriptName(stage));
  }

  lemma PathJoin(prefix: string, dir: string, script: string)
    ensures prefix + (dir + "/" + script) == prefix + dir + "/" + script
  {
  }

  /** Every documented scenario resolves as the worker's tests expect, for
      both stages. */
  lemma ScenariosResolve(projectDir: string, tenant: string, stage: Stage)
    ensures forall k :: 0 <= k < |Scenarios| ==> ScenarioHolds(projectDir, tenant, stage, Scenarios[k])
  {
    forall k | 0 <= k < |Scenarios|
      ensures ScenarioHolds(projectDir, tenant, stage, Scenarios[k])
    {
      ScenarioFromTable(projectDir, tenant, stage, Scenarios[k]);
    }
  }

}

=== FILE: nobuild_worker.dfy ===
/** The no-build worker: the shell worker with the image build dummied out.
    It reports a pending status, runs the unit tests, reports their outcome,
    and marks the assembly READY itself when they pass, since no deployer will.
    The scripts it starts see a minimal environment built from an allow-list. */
module NobuildWorker {
  import opened Values
  import opened Outcomes
  import opened Contexts
  import opened Secrets
  import opened Messages
  import opened ShellWorker
  import A = AssemblyStates

  // ---------------------------------------------------------------------
  // The scripts' environment

  /** The process variables a script may inherit. */
  const Inherited: set<string> := {"PATH", "LOGNAME", "LANG", "HOME", "USER", "TERM"}

  /** The variables the worker sets itself. */
  const Injected: set<string> := {"OS_AUTH_TOKEN", "OS_AUTH_URL", "PROJECT_ID", "BUILD_ID", "SOLUM_TASK_DIR"}

  /** `_get_environment`: the allow-listed variables of the worker's own
      environment, then the context's credentials and tenant, a fresh build
      uuid and the configured task log directory. The uuid and the directory
      are parameters. */
  function Environment(osEnv: map<string, string>, ctx: Context, buildUuid: string,
                       taskLogDir: string): (env: map<string, string>)
    ensures env.Keys <= Inherited + Injected
    ensures Injected <= env.Keys
    ensures forall v :: v in Inherited ==> (v in env <==> v in osEnv)
    ensures forall v :: v in Inherited && v in osEnv ==> env[v] == osEnv[v]
    ensures env["OS_AUTH_TOKEN"] == ctx.authToken && env["OS_AUTH_URL"] == ctx.authUrl
    ensures env["PROJECT_ID"] == ctx.tenant
    ensures env["BUILD_ID"] == buildUuid && env["SOLUM_TASK_DIR"] == taskLogDir
  {
    var allowed := map v | v in osEnv && v in Inherited :: osEnv[v];
    allowed["OS_AUTH_TOKEN" := ctx.authToken]["OS_AUTH_URL" := ctx.authUrl]
      ["PROJECT_ID" := ctx.tenant]["BUILD_ID" := buildUuid]["SOLUM_TASK_DIR" := taskLogDir]
  }

  /** Nothing outside the worker's own environment leaks into a script's
      environment: two worker environments that agree on the allow-list give
      the same script environment. */
  lemma EnvironmentIgnoresOthers(osEnv1: map<string, string>, osEnv2: map<string, string>,
                                 ctx: Context, buildUuid: string, taskLogDir: string)
    requires forall v :: v in Inherited ==> (v in osEnv1 <==> v in osEnv2)
    requires forall v :: v in Inherited && v in osEnv1 ==> osEnv1[v] == osEnv2[v]
    ensures Environment(osEnv1, ctx, buildUuid, taskLogDir) == Environment(osEnv2, ctx, buildUuid, taskLogDir)
  {
    var e1 := Environment(osEnv1, ctx, buildUuid, taskLogDir);
    var e2 := Environment(osEnv2, ctx, buildUuid, taskLogDir);
    assert e1.Keys == e2.Keys;
  }

  // ---------------------------------------------------------------------
  // Status callbacks

  /** The `state` of a status payload. */
  datatype CallbackState = PendingState | SuccessState | FailureState

  /** The payload state and description the worker's tests expect for a
      status call: pending while testing, then success or failure by the
      return code. */
  function StatusBody(call: StatusCall): (body: (CallbackState, string))
    ensures body.0 == PendingState <==> call.pending
    ensures body.0 == SuccessState <==> !call.pending && call.retCode == 0
    ensures body.0 == FailureState <==> !call.pending && call.retCode != 0
  {
    if call.pending then (PendingState, "Solum says: Testing in progress")
    else if call.retCode == 0 then (SuccessState, "Solum says: Tests passed")
    else (FailureState, "Solum says: Tests failed")
  }

  // ---------------------------------------------------------------------
  // The build endpoint

  /** What the no-build worker does: its status calls, the processes started,
      the assembly status updates, and the exception that ended it early. */
  datatype NobuildRun = NobuildRun(
    statusCalls: seq<StatusCall>,
    popens: seq<seq<Value>>,
    assemblyUpdates: seq<AssemblyUpdate>,
    failure: Option<Error>)

  /** The `git_info` key the worker reads its status token from. */
  const StatusTokenKey: string := "status_token"

  /** The `git_info` key under which the assembly handler stores the token. */
  const RepoTokenKey: string := "repo_token"

  /** `build` reading the status token under `tokenKey`: the pending status,
      the unit-test stage of the inherited `_run_unittest`, which runs the
      script only when a test command is set (return code 0 otherwise), the
      final status with the return code, and READY exactly when the return
      code is 0. `exitCode` is the unittest script's exit code. */
  function BuildReading(tokenKey: string, cfg: WorkerConfig, ctx: Context, job: BuildJob,
                        stored: seq<DeployKey>, exitCode: int): (r: NobuildRun)
    ensures |r.statusCalls| >= 1
    ensures r.statusCalls[0] == StatusCall(0, Get(job.gitInfo, "status_url"), Get(job.gitInfo, tokenKey), true)
    ensures r.failure.None? ==> |r.statusCalls| == 2 && !r.statusCalls[1].pending
    ensures r.failure.None? ==>
      r.statusCalls[1].retCode == (if Truthy(job.testCmd) then exitCode else 0)
    ensures (AssemblyUpdate(job.assemblyId, A.Ready) in r.assemblyUpdates)
      <==> r.failure.None? && (!Truthy(job.testCmd) || exitCode == 0)
    ensures !Truthy(job.testCmd) ==> r.popens == [] && r.failure.None?
    ensures |r.popens| <= 1
  {
    var statusUrl := Get(job.gitInfo, "status_url");
    var statusToken := Get(job.gitInfo, tokenKey);
    var pending := StatusCall(0, statusUrl, statusToken, true);
    var tests := if Truthy(job.testCmd) then Unittest(cfg, ctx, job, stored, exitCode)
                 else Run([], [], [], [], None);
    var retCode := if Truthy(job.testCmd) then exitCode else 0;
    if tests.failure.Some? then
      NobuildRun([pending], tests.popens, tests.assemblyUpdates, tests.failure)
    else
      var ready := if retCode == 0 then [AssemblyUpdate(job.assemblyId, A.Ready)] else [];
      assert AssemblyUpdate(job.assemblyId, A.Ready) !in tests.assemblyUpdates;
      NobuildRun([pending, StatusCall(retCode, statusUrl, statusToken, false)],
                 tests.popens, tests.assemblyUpdates + ready, None)
  }

  /** The `build` endpoint as written: the token is read under
      `status_token`. */
  function Build(cfg: WorkerConfig, ctx: Context, job: BuildJob, stored: seq<DeployKey>,
                 exitCode: int): (r: NobuildRun)
    ensures |r.statusCalls| >= 1 && r.statusCalls[0].statusToken == Get(job.gitInfo, StatusTokenKey)
    ensures (AssemblyUpdate(job.assemblyId, A.Ready) in r.assemblyUpdates)
      <==> r.failure.None? && (!Truthy(job.testCmd) || exitCode == 0)
  {
    BuildReading(StatusTokenKey, cfg, ctx, job, stored, exitCode)
  }

  /** The `build` endpoint reading the token where the assembly handler puts
      it, under `repo_token`. */
  function BuildWithRepoToken(cfg: WorkerConfig, ctx: Context, job: BuildJob, stored: seq<DeployKey>,
                              exitCode: int): (r: NobuildRun)
    ensures |r.statusCalls| >= 1 && r.statusCalls[0].statusToken == Get(job.gitInfo, RepoTokenKey)
    ensures (AssemblyUpdate(job.assemblyId, A.Ready) in r.assemblyUpdates)
      <==> r.failure.None? && (!Truthy(job.testCmd) || exitCode == 0)
  {
    BuildReading(RepoTokenKey, cfg, ctx, job, stored, exitCode)
  }

  /** With a test command, the no-build worker's assembly updates are the
      shell worker's unit-test updates followed by READY when they passed. */
  lemma TestsThenReady(cfg: WorkerConfig, ctx: Context, job: BuildJob, stored: seq<DeployKey>,
                       exitCode: int)
    requires Truthy(job.testCmd)
    ensures var r := BuildWithRepoToken(cfg, ctx, job, stored, exitCode);
      var u := Unittest(cfg, ctx, job, stored, exitCode);
      && r.popens == u.popens
      && r.assemblyUpdates
         == u.assemblyUpdates
            + (if u.failure.None? && exitCode == 0 then [AssemblyUpdate(job.assemblyId, A.Ready)] else [])
  {
  }
}

=== FILE: pipeline.dfy ===
/** One artifact's path from the assembly handler to a worker: the build
    message the handler casts is what the worker's `build` endpoint
    receives, through the worker API's `perform_action`. */
module Pipeline {
  import opened Values
  import opened Outcomes
  import opened Contexts
  import opened Secrets
  import opened Messages
  import opened BuildCommand
  import AH = AssemblyHandler
  import SW = ShellWorker
  import NB = NobuildWorker

  /** The worker's arguments for a cast build message, once a `build`
      method has accepted it: the fields by name, no source credentials
      reference, and `artifact_type`, `run_cmd` and `others` ignored. */
  function JobOf(m: Message): SW.BuildJob {
    SW.BuildJob(m.buildId, m.gitInfo, m.name, m.baseImageId, m.sourceFormat, m.imageFormat,
                m.assemblyId, m.testCmd, Null)
  }

  /** The keyword arguments `perform_action` casts, in the order it passes
      them; all of them, whether or not the handler had a value. */
  const CastKeywords: seq<string> :=
    ["build_id", "git_info", "name", "base_image_id", "source_format", "image_format",
     "assembly_id", "test_cmd", "artifact_type", "run_cmd", "others"]

  /** The keyword parameters of the no-build worker's `build`, after the
      request context. */
  const NobuildParameters: set<string> :=
    {"build_id", "git_info", "name", "base_image_id", "source_format", "image_format",
     "assembly_id", "test_cmd", "source_creds_ref"}

  /** Those parameters with the three the cast adds, which `build` would
      accept and ignore. */
  const AcceptingParameters: set<string> := NobuildParameters + {"artifact_type", "run_cmd", "others"}

  /** The first keyword a function with these parameters has no parameter
      for. */
  function FirstUnexpected(keywords: seq<string>, parameters: set<string>): (r: Option<string>)
    ensures r.None? <==> forall i :: 0 <= i < |keywords| ==> keywords[i] in parameters
    ensures r.Some? ==> r.value in keywords && r.value !in parameters
    decreases |keywords|
  {
    if |keywords| == 0 then None
    else if keywords[0] !in parameters then Some(keywords[0])
    else FirstUnexpected(keywords[1..], parameters)
  }

  /** The keyword refused is the first one without a parameter. */
  lemma {:induction false} FirstUnexpectedAt(keywords: seq<string>, parameters: set<string>, n: nat)
    requires n < |keywords| && keywords[n] !in parameters
    requires forall j :: 0 <= j < n ==> keywords[j] in parameters
    ensures FirstUnexpected(keywords, parameters) == Some(keywords[n])
    decreases n
  {
    if n > 0 {
      assert keywords[0] in parameters;
      var rest := keywords[1..];
      assert forall j :: 0 <= j < n - 1 ==> rest[j] == keywords[j + 1];
      FirstUnexpectedAt(rest, parameters, n - 1);
    }
  }

  /** The order the dispatcher expands a cast message's keywords in. It is
      the messaging library's dictionary order, which is not part of this
      model, so any arrangement of the cast keywords will do;
      `CastKeywords` itself is the order `perform_action` writes them in. */
  predicate KeywordOrder(order: seq<string>) {
    && (forall i :: 0 <= i < |order| ==> order[i] in CastKeywords)
    && (forall i :: 0 <= i < |CastKeywords| ==> CastKeywords[i] in order)
  }

  /** The RPC dispatcher calling `build(ctxt, **kwargs)` with a cast build
      message whose keywords come in `order`: Python raises TypeError for the
      first keyword the method has no parameter for, and otherwise the
      method gets the job. */
  function Deliver(m: Message, parameters: set<string>, order: seq<string>): (r: Result<SW.BuildJob>)
    requires KeywordOrder(order)
    ensures r.Ok? <==> forall i :: 0 <= i < |CastKeywords| ==> CastKeywords[i] in parameters
    ensures r.Err? ==> r.error.TypeError? && r.error.what in CastKeywords && r.error.what !in parameters
    ensures r.Ok? ==> r.value == JobOf(m)
  {
    match FirstUnexpected(order, parameters)
    case Some(k) => Err(TypeError(k))
    case None => Ok(JobOf(m))
  }

  /** As written, the no-build worker refuses every cast build message,
      whatever order its keywords arrive in: it has no `artifact_type`,
      `run_cmd` or `others` parameter, and the TypeError names one of them;
      in `perform_action`'s own order, `artifact_type`. */
  lemma NobuildRefusesCast(m: Message, order: seq<string>)
    requires KeywordOrder(order)
    ensures Deliver(m, NobuildParameters, order).Err?
    ensures Deliver(m, NobuildParameters, order).error
            in {TypeError("artifact_type"), TypeError("run_cmd"), TypeError("others")}
    ensures order == CastKeywords ==> Deliver(m, NobuildParameters, order) == Err(TypeError("artifact_type"))
  {
    assert CastKeywords[8] !in NobuildParameters;
    if order == CastKeywords {
      assert forall j :: 0 <= j < 8 ==> CastKeywords[j] in NobuildParameters;
      FirstUnexpectedAt(CastKeywords, NobuildParameters, 8);
    }
  }

  /** A `build` that also accepts `artifact_type`, `run_cmd` and `others`
      gets exactly the job the message describes, in any keyword order. */
  lemma ExtraKeywordsAccepted(m: Message, order: seq<string>)
    requires KeywordOrder(order)
    ensures Deliver(m, AcceptingParameters, order) == Ok(JobOf(m))
  {
    assert forall i :: 0 <= i < |CastKeywords| ==> CastKeywords[i] in AcceptingParameters;
  }

  /** Under the default options, every artifact the handler dispatches is a
      job the shell worker can run, unless the artifact names a source
      format the worker has no tool for. */
  lemma DispatchedJobRunnable(ctx: Context, assemblyId: nat, artifact: Value, imageId: nat)
    requires AH.Normalise(AH.DefaultConfig, ctx, assemblyId, artifact, imageId).Ok?
    requires "artifact_type" in artifact.fields ==> ToolTree(artifact.fields["artifact_type"]).Some?
    ensures SW.Runnable(JobOf(AH.Normalise(AH.DefaultConfig, ctx, assemblyId, artifact, imageId).value.message))
  {
    var m := AH.Normalise(AH.DefaultConfig, ctx, assemblyId, artifact, imageId).value.message;
    assert "source_url" in m.gitInfo;
  }

  /** An artifact without `language_pack` or `artifact_type` is built, under
      the default options, by the cedarish VM script on the `cedarish` base
      image. */
  lemma DefaultArtifactBuildsCedarish(cfg: SW.WorkerConfig, ctx: Context, assemblyId: nat,
                                      artifact: Value, imageId: nat, key: string)
    requires AH.Normalise(AH.DefaultConfig, ctx, assemblyId, artifact, imageId).Ok?
    requires "language_pack" !in artifact.fields && "artifact_type" !in artifact.fields
    ensures var job := JobOf(AH.Normalise(AH.DefaultConfig, ctx, assemblyId, artifact, imageId).value.message);
      && SW.Runnable(job)
      && SW.Argv(cfg, ctx, job, BuildStage, key)[0] == Str(cfg.projectDir + "/contrib/" + ToolSuffix("lp-cedarish", "vm-slug", BuildStage))
      && SW.Argv(cfg, ctx, job, BuildStage, key)[4] == Str("cedarish")
  {
    var job := JobOf(AH.Normalise(AH.DefaultConfig, ctx, assemblyId, artifact, imageId).value.message);
    DispatchedJobRunnable(ctx, assemblyId, artifact, imageId);
    assert job.baseImageId == Str("auto") && job.sourceFormat == Str("heroku") && job.imageFormat == Str("qcow2");
    HerokuVmCommand(cfg.projectDir, job.gitInfo["source_url"], job.name, ctx.tenant, key, job.testCmd);
  }

  /** The build command of an `auto` heroku VM build. */
  lemma HerokuVmCommand(projectDir: string, sourceUrl: Value, name: Value, tenant: string, key: string,
                        testCmd: Value)
    ensures var r := Command(projectDir, BuildStage, sourceUrl, name, tenant, Str("auto"), Str("heroku"),
                             Str("qcow2"), key, testCmd);
      && r.Ok?
      && r.value[0] == Str(projectDir + "/contrib/" + ToolSuffix("lp-cedarish", "vm-slug", BuildStage))
      && r.value[4] == Str("cedarish")
  {
  }

  /** The status token the no-build worker sends, as written: the handler's
      `git_info` has no `status_token`, so the worker's calls carry None,
      while the handler's own pending call carried the artifact's
      `repo_token`. The job is the one a `build` accepting the cast's
      keywords receives (`ExtraKeywordsAccepted`). */
  lemma TokenLostAsWritten(cfg: SW.WorkerConfig, ctx: Context, assemblyId: nat, artifact: Value,
                           imageId: nat, stored: seq<DeployKey>, exitCode: int)
    requires AH.Normalise(AH.DefaultConfig, ctx, assemblyId, artifact, imageId).Ok?
    ensures var req := AH.Normalise(AH.DefaultConfig, ctx, assemblyId, artifact, imageId).value;
      var r := NB.Build(cfg, ctx, JobOf(req.message), stored, exitCode);
      && r.statusCalls[0].statusToken == Null
      && (Get(artifact.fields, "repo_token") != Null ==>
            r.statusCalls[0].statusToken != Get(artifact.fields, "repo_token"))
  {
    var m := AH.Normalise(AH.DefaultConfig, ctx, assemblyId, artifact, imageId).value.message;
    assert NB.StatusTokenKey !in m.gitInfo;
  }

  /** Reading the token under `repo_token`, the no-build worker's status
      calls carry the same token as the handler's pending call, for the job
      a `build` accepting the cast's keywords receives. */
  lemma TokenKeptWithRepoToken(cfg: SW.WorkerConfig, ctx: Context, assemblyId: nat, artifact: Value,
                               imageId: nat, stored: seq<DeployKey>, exitCode: int)
    requires AH.Normalise(AH.DefaultConfig, ctx, assemblyId, artifact, imageId).Ok?
    ensures var req := AH.Normalise(AH.DefaultConfig, ctx, assemblyId, artifact, imageId).value;
      var r := NB.BuildWithRepoToken(cfg, ctx, JobOf(req.message), stored, exitCode);
      && r.statusCalls[0].statusToken == Get(artifact.fields, "repo_token")
      && (req.pending.Some? ==> r.statusCalls[0].statusToken == req.pending.value.statusToken)
  {
  }
}

=== FILE: plan_controller.dfy ===
/** The plans REST controller: it checks a request body, loads it as YAML,
    picks the plan-format handler by the plan's `version`, and renders plans
    back with their uri. YAML loading, the datamodel conversion and the
    handler's refined content are parameters. */
module PlanController {
  import opened Values
  import opened Outcomes
  import opened Contexts
  import opened Routing
  import Secrets
  import PH = PlanHandler

  /** What loading a body as YAML gives: a document, or the ValueError's
      message. */
  datatype Loaded = Parsed(doc: Value) | Invalid(message: string)

  /** The plan formats the controller knows. Only version 1 has an
      `init_plan_v<version>` function. */
  datatype PlanFormat = PlanV1

  /** `init_plan_by_version`: a plan without `version` (or with `version:
      null`) is refused; otherwise the version is rendered with `%s` and must
      name an existing `init_plan_v<version>`. A plan that is not a mapping
      has no `get`. */
  function InitPlanByVersion(plan: Value): (r: Result<PlanFormat>)
    ensures r.Ok? <==> plan.Dict? && (Get(plan.fields, "version") == Int(1) || Get(plan.fields, "version") == Str("1"))
    ensures plan.Dict? && Get(plan.fields, "version") == Null ==>
      r == Err(BadRequest("Version attribute is missing in Plan"))
    ensures plan.Dict? && Get(plan.fields, "version") != Null && r.Err? ==>
      r == Err(BadRequest("Plan version " + Format(Get(plan.fields, "version")) + " is invalid."))
  {
    if !plan.Dict? then Err(TypeError("plan"))
    else
      var version := Get(plan.fields, "version");
      FormatIsOne(version);
      if version == Null then Err(BadRequest("Version attribute is missing in Plan"))
      else if "init_plan_v" + Format(version) != "init_plan_v1" then
        assert Format(version) != "1";
        Err(BadRequest("Plan version " + Format(version) + " is invalid."))
      else
        assert Format(version) == ("init_plan_v" + Format(version))[11..];
        Ok(PlanV1)
  }

  /** The body check and parse that `post` and `put` share: an absent or empty
      body is a bad request before anything is parsed, and a body that does
      not load is a bad request carrying the loader's message. */
  function ParseBody(body: Option<string>, load: string -> Loaded): (r: Result<Value>)
    ensures body.None? || body == Some("") ==> r == Err(BadRequest(""))
    ensures body.Some? && body != Some("") ==>
      (load(body.value).Invalid? <==> r.Err?)
      && (load(body.value).Invalid? ==> r == Err(BadRequest("Plan is invalid. " + load(body.value).message)))
      && (load(body.value).Parsed? ==> r == Ok(load(body.value).doc))
  {
    if body.None? || |body.value| < 1 then Err(BadRequest(""))
    else
      match load(body.value)
      case Invalid(message) => Err(BadRequest("Plan is invalid. " + message))
      case Parsed(doc) => Ok(doc)
  }

  /** An absent or empty body is refused whatever the loader would say. */
  lemma EmptyBodyNeverLoaded(body: Option<string>, load1: string -> Loaded, load2: string -> Loaded)
    requires body.None? || body == Some("")
    ensures ParseBody(body, load1) == ParseBody(body, load2) == Err(BadRequest(""))
  {
  }

  /** The document `post` and `put` hand to the plan handler: the parsed plan
      of a known version, through the version-1 datamodel's `as_dict`. */
  function RequestDocument(body: Option<string>, load: string -> Loaded,
                           asDict: Document -> Document): (r: Result<Document>)
    ensures r.Ok? <==> ParseBody(body, load).Ok? && InitPlanByVersion(ParseBody(body, load).value).Ok?
    ensures r.Ok? ==> r.value == asDict(ParseBody(body, load).value.fields)
    ensures ParseBody(body, load).Err? ==> r == Err(ParseBody(body, load).error)
    ensures ParseBody(body, load).Ok? && InitPlanByVersion(ParseBody(body, load).value).Err? ==>
      r == Err(InitPlanByVersion(ParseBody(body, load).value).error)
  {
    var plan :- ParseBody(body, load);
    var format :- InitPlanByVersion(plan);
    Ok(asDict(plan.fields))
  }

  /** `yaml_content`: the handler's refined content of a plan, with the
      plan's uri. */
  function YamlContent(plan: PH.PlanRecord, hostUrl: string, refine: PH.PlanRecord -> Document): (d: Document)
    ensures "uri" in d && d["uri"] == Str(hostUrl + "/v1/plans/" + plan.uuid)
    ensures forall k :: k in refine(plan) && k != "uri" ==> k in d && d[k] == refine(plan)[k]
  {
    refine(plan)["uri" := Str(hostUrl + "/v1/plans/" + plan.uuid)]
  }

  /** `post`: the created plan, rendered. */
  function Post(st: PH.PlanState, ctx: Context, body: Option<string>, load: string -> Loaded,
                asDict: Document -> Document, store: PH.ParamStore, uuid: string, newId: nat,
                gen: nat -> Secrets.KeyPair, barbicanRef: string, hostUrl: string,
                refine: PH.PlanRecord -> Document): (r: Result<(PH.PlanState, Document)>)
    ensures RequestDocument(body, load, asDict).Err? ==> r == Err(RequestDocument(body, load, asDict).error)
    ensures RequestDocument(body, load, asDict).Ok? ==>
      var created := PH.Create(st, ctx, RequestDocument(body, load, asDict).value, store, uuid, newId, gen, barbicanRef);
      && (r.Ok? <==> created.Ok?)
      && (created.Err? ==> r == Err(created.error))
      && (created.Ok? ==> r.value.0 == created.value)
    ensures r.Ok? ==> (uuid in r.value.0.plans
      && r.value.1 == YamlContent(r.value.0.plans[uuid], hostUrl, refine))
    ensures r.Ok? ==> r.value.1["uri"] == Str(hostUrl + "/v1/plans/" + uuid)
  {
    var data :- RequestDocument(body, load, asDict);
    var created :- PH.Create(st, ctx, data, store, uuid, newId, gen, barbicanRef);
    Ok((created, YamlContent(created.plans[uuid], hostUrl, refine)))
  }

  /** `get`: the stored plan, rendered. */
  function GetOne(st: PH.PlanState, id: string, hostUrl: string, refine: PH.PlanRecord -> Document): (r: Result<Document>)
    ensures r.Ok? <==> id in st.plans
    ensures r.Err? ==> r.error == NotFound("plan")
    ensures r.Ok? ==> r.value == YamlContent(st.plans[id], hostUrl, refine)
    ensures r.Ok? ==> "uri" in r.value && r.value["uri"] == Str(hostUrl + "/v1/plans/" + st.plans[id].uuid)
  {
    var plan :- PH.GetPlan(st, id);
    Ok(YamlContent(plan, hostUrl, refine))
  }

  /** Reading a plan right after `post` shows what `post` returned. */
  lemma PostThenGet(st: PH.PlanState, ctx: Context, body: Option<string>, load: string -> Loaded,
                    asDict: Document -> Document, store: PH.ParamStore, uuid: string, newId: nat,
                    gen: nat -> Secrets.KeyPair, barbicanRef: string, hostUrl: string,
                    refine: PH.PlanRecord -> Document)
    requires Post(st, ctx, body, load, asDict, store, uuid, newId, gen, barbicanRef, hostUrl, refine).Ok?
    ensures var p := Post(st, ctx, body, load, asDict, store, uuid, newId, gen, barbicanRef, hostUrl, refine).value;
      GetOne(p.0, uuid, hostUrl, refine) == Ok(p.1)
  {
  }

  /** Reading a plan right after `put` shows what `put` returned. */
  lemma PutThenGet(st: PH.PlanState, id: string, body: Option<string>, load: string -> Loaded,
                   asDict: Document -> Document, hostUrl: string, refine: PH.PlanRecord -> Document)
    requires Put(st, id, body, load, asDict, hostUrl, refine).Ok?
    ensures var p := Put(st, id, body, load, asDict, hostUrl, refine).value;
      GetOne(p.0, id, hostUrl, refine) == Ok(p.1)
  {
  }

  /** `put`: the updated plan, rendered. */
  function Put(st: PH.PlanState, id: string, body: Option<string>, load: string -> Loaded,
               asDict: Document -> Document, hostUrl: string,
               refine: PH.PlanRecord -> Document): (r: Result<(PH.PlanState, Document)>)
    ensures r.Ok? <==> RequestDocument(body, load, asDict).Ok? && id in st.plans
    ensures RequestDocument(body, load, asDict).Err? ==> r.Err? && r.error == RequestDocument(body, load, asDict).error
    ensures RequestDocument(body, load, asDict).Ok? && id !in st.plans ==> r == Err(NotFound("plan"))
    ensures r.Ok? ==> r.value.0 == PH.Update(st, id, RequestDocument(body, load, asDict).value).value
    ensures r.Ok? ==> id in r.value.0.plans && r.value.1 == YamlContent(r.value.0.plans[id], hostUrl, refine)
  {
    var data :- RequestDocument(body, load, asDict);
    var updated :- PH.Update(st, id, data);
    Ok((updated, YamlContent(updated.plans[id], hostUrl, refine)))
  }

  /** The exception `delete` raises for one the handler raised: a reference
      error means the plan is still referenced, any other database error
      becomes a generic Solum exception, and anything else passes. */
  function DeleteError(id: string, e: Error): (r: Error)
    ensures e.DbReferenceError? ==> r == PlanStillReferenced(id)
    ensures e.DbError? ==> r == SolumException(e.message)
    ensures !e.DbReferenceError? && !e.DbError? ==> r == e
  {
    match e
    case DbReferenceError => PlanStillReferenced(id)
    case DbError(message) => SolumException(message)
    case _ => e
  }

  /** `delete`: the handler's deletion, its exception translated. */
  function Delete(st: PH.PlanState, id: string, store: PH.ParamStore,
                  destroyError: Option<Error>): (r: PH.Deletion)
    ensures r.state == PH.Delete(st, id, store, destroyError).state
    ensures r.failure.None? <==> PH.Delete(st, id, store, destroyError).failure.None?
    ensures r.failure.Some? ==> r.failure.value == DeleteError(id, PH.Delete(st, id, store, destroyError).failure.value)
  {
    var d := PH.Delete(st, id, store, destroyError);
    if d.failure.None? then d else PH.Deletion(d.state, Some(DeleteError(id, d.failure.value)))
  }

  /** A plan an assembly still references is reported as such, and the plan
      stays; its parameters, though, were already deleted before the destroy
      failed. */
  lemma ReferencedPlanStays(st: PH.PlanState, id: string, store: PH.ParamStore)
    requires id in st.plans && PH.DeleteParams(st, st.plans[id].id, store).Ok?
    ensures var d := Delete(st, id, store, Some(DbReferenceError));
      && d.failure == Some(PlanStillReferenced(id))
      && id in d.state.plans
      && st.plans[id].id !in d.state.params
  {
  }

  /** A plan `get_all` lists: present, with non-empty raw content. */
  predicate Listed(p: Option<PH.PlanRecord>) {
    p.Some? && |p.value.rawContent| > 0
  }

  /** `get_all`: the listed plans, rendered, in order. */
  function GetAll(plans: seq<Option<PH.PlanRecord>>, hostUrl: string,
                  refine: PH.PlanRecord -> Document): (r: seq<Document>)
    ensures |r| <= |plans|
    decreases |plans|
  {
    if |plans| == 0 then []
    else
      var rest := GetAll(plans[1..], hostUrl, refine);
      if Listed(plans[0]) then [YamlContent(plans[0].value, hostUrl, refine)] + rest else rest
  }

  /** Every listed plan is rendered, and everything rendered is a listed
      plan. */
  lemma {:induction false} GetAllListsExactly(plans: seq<Option<PH.PlanRecord>>, hostUrl: string,
                                              refine: PH.PlanRecord -> Document)
    ensures forall i :: 0 <= i < |plans| && Listed(plans[i]) ==>
      YamlContent(plans[i].value, hostUrl, refine) in GetAll(plans, hostUrl, refine)
    ensures forall d :: d in GetAll(plans, hostUrl, refine) ==>
      exists i :: 0 <= i < |plans| && Listed(plans[i]) && d == YamlContent(plans[i].value, hostUrl, refine)
    decreases |plans|
  {
    if |plans| > 0 {
      var tail := plans[1..];
      GetAllListsExactly(tail, hostUrl, refine);
      forall i | 1 <= i < |plans| ensures plans[i] == tail[i - 1] {
      }
      var r := GetAll(plans, hostUrl, refine);
      forall d | d in r
        ensures exists i :: 0 <= i < |plans| && Listed(plans[i]) && d == YamlContent(plans[i].value, hostUrl, refine)
      {
        if Listed(plans[0]) && d == YamlContent(plans[0].value, hostUrl, refine) {
        } else {
          assert d in GetAll(tail, hostUrl, refine);
          var j :| 0 <= j < |tail| && Listed(tail[j]) && d == YamlContent(tail[j].value, hostUrl, refine);
          assert plans[j + 1] == tail[j];
        }
      }
    }
  }

  /** `_lookup` of the plans collection: the plan id and the remainder with
      one trailing empty segment dropped. */
  function Lookup(planId: string, remainder: seq<string>): (r: (string, seq<string>))
    ensures r.0 == planId
    ensures |remainder| - 1 <= |r.1| <= |remainder| && r.1 == remainder[..|r.1|]
    ensures remainder != r.1 <==> |remainder| > 0 && remainder[|remainder| - 1] == ""
  {
    (planId, DropTrailingEmpty(remainder))
  }
}

=== FILE: plan_handler.dfy ===
/** The plan handler: it stores a plan, provisions a deploy key for each
    private artifact, keeps the keys in the configured parameter store, and
    records the plan's user and system parameters beside it. Key generation
    is a parameter (`gen(k)` is the k-th key pair generated), the local file
    is a map from plan uuid to payload, and the barbican service is a map
    from secret reference to payload. */
module PlanHandler {
  import opened Values
  import opened Outcomes
  import opened Contexts
  import opened Secrets

  // ---------------------------------------------------------------------
  // Stored state

  /** One parameter record: user-defined and system-defined parameters, each
      set only when given. */
  datatype ParamRecord = ParamRecord(userParams: Option<Value>, sysParams: Option<map<string, Handle>>)

  /** One stored plan. `id` is the database id the parameters refer to. */
  datatype PlanRecord = PlanRecord(
    id: nat,
    uuid: string,
    name: Option<Value>,
    rawContent: Document,
    userId: string,
    projectId: string)

  /** The plans by uuid, the parameter records by plan id, the local secrets
      file and the barbican secrets. */
  datatype PlanState = PlanState(
    plans: map<string, PlanRecord>,
    params: map<nat, ParamRecord>,
    shelf: map<string, seq<DeployKey>>,
    vault: map<string, seq<DeployKey>>)

  /** The configured `system_param_store`. */
  datatype ParamStore = Database | LocalFile | Barbican | Unrecognised(name: string)

  /** The system parameter that holds the deploy keys' handle. */
  const RepoDeployKeys: string := "REPO_DEPLOY_KEYS"

  // ---------------------------------------------------------------------
  // Which artifacts get a deploy key

  predicate HasContent(a: Value) {
    a.Dict? && "content" in a.fields
  }

  /** An artifact whose content says `private` with a truthy value. */
  predicate IsPrivate(a: Value) {
    && HasContent(a)
    && a.fields["content"].Dict?
    && "private" in a.fields["content"].fields
    && Truthy(a.fields["content"].fields["private"])
  }

  /** An artifact the key loop gets past: its tests for `content` and
      `private` do not raise, and a private one names its repository. */
  predicate WellFormed(a: Value) {
    && WantsKey(a).Ok?
    && (IsPrivate(a) ==> "href" in a.fields["content"].fields)
  }

  /** The repository of a private artifact. */
  function Href(a: Value): Value
    requires IsPrivate(a) && WellFormed(a)
  {
    a.fields["content"].fields["href"]
  }

  /** The artifact with `public_key` set in its content. */
  function WithPublicKey(a: Value, publicKey: string): (r: Value)
    requires IsPrivate(a)
    ensures r.Dict? && r.fields.Keys == a.fields.Keys
    ensures forall k :: k in a.fields && k != "content" ==> r.fields[k] == a.fields[k]
    ensures r.fields["content"].Dict?
    ensures r.fields["content"].fields == a.fields["content"].fields["public_key" := Str(publicKey)]
  {
    var content := a.fields["content"].fields;
    Dict(a.fields["content" := Dict(content["public_key" := Str(publicKey)])])
  }

  /** The skip test of the key loop. Its `in` tests are Python's: on a
      string they look for a substring and on a list for an element, so a
      string or list that does not mention the key is skipped, one that does
      cannot be subscripted by it (TypeError), and a scalar cannot be
      searched at all (TypeError). */
  function WantsKey(a: Value): (r: Result<bool>)
    ensures r.Ok? ==> (r.value <==> IsPrivate(a))
    ensures a.Dict? && (HasContent(a) ==> a.fields["content"].Dict?) ==> r.Ok?
    ensures a.Dict? && HasContent(a) && a.fields["content"].Str? ==>
      (r.Ok? <==> !Substring("private", a.fields["content"].s))
    ensures a.Str? ==> (r.Ok? <==> !Substring("content", a.s))
    ensures a.Null? || a.Bool? || a.Int? ==> r.Err?
  {
    var hasContent :- Contains(a, "content");
    if !hasContent then Ok(false)
    else
      var content :- Subscript(a, "content");
      var hasPrivate :- Contains(content, "private");
      if !hasPrivate then Ok(false)
      else
        var flag :- Subscript(content, "private");
        Ok(Truthy(flag))
  }

  /** How many artifacts are private. */
  function PrivateCount(artifacts: seq<Value>): (n: nat)
    ensures n <= |artifacts|
    decreases |artifacts|
  {
    if |artifacts| == 0 then 0
    else (if IsPrivate(artifacts[0]) then 1 else 0) + PrivateCount(artifacts[1..])
  }

  /** The artifacts after key provisioning, and the deploy keys in order. */
  datatype Provisioned = Provisioned(artifacts: seq<Value>, keys: seq<DeployKey>)

  /** The key loop of `create`, from the artifact at hand on: each private
      artifact gets the next generated key pair, its public key in its
      content and one deploy-key record; the others pass unchanged. `next` is
      the number of key pairs generated so far. */
  function ProvisionAll(artifacts: seq<Value>, gen: nat -> KeyPair, next: nat): (r: Result<Provisioned>)
    ensures r.Ok? <==> forall i :: 0 <= i < |artifacts| ==> WellFormed(artifacts[i])
    ensures r.Ok? ==> |r.value.artifacts| == |artifacts| && |r.value.keys| == PrivateCount(artifacts)
    decreases |artifacts|
  {
    if |artifacts| == 0 then Ok(Provisioned([], []))
    else
      var a := artifacts[0];
      assert forall i :: 0 < i < |artifacts| ==> artifacts[i] == artifacts[1..][i - 1];
      var wants :- WantsKey(a);
      if !wants then
        var rest :- ProvisionAll(artifacts[1..], gen, next);
        Ok(Provisioned([a] + rest.artifacts, rest.keys))
      else
        var href :- Index(a.fields["content"].fields, "href");
        var kp := gen(next);
        var rest :- ProvisionAll(artifacts[1..], gen, next + 1);
        Ok(Provisioned([WithPublicKey(a, kp.publicKey)] + rest.artifacts,
                       [DeployKey(href, kp.privateKey)] + rest.keys))
  }

  /** One step of the key loop: the first artifact's outcome, then the
      loop over the rest. */
  lemma ProvisionStep(artifacts: seq<Value>, gen: nat -> KeyPair, next: nat)
    requires |artifacts| > 0 && ProvisionAll(artifacts, gen, next).Ok?
    ensures var a := artifacts[0];
      var p := ProvisionAll(artifacts, gen, next).value;
      && WellFormed(a)
      && ProvisionAll(artifacts[1..], gen, next + (if IsPrivate(a) then 1 else 0)).Ok?
      && var rest := ProvisionAll(artifacts[1..], gen, next + (if IsPrivate(a) then 1 else 0)).value;
      && p.artifacts[1..] == rest.artifacts
      && (!IsPrivate(a) ==> p.artifacts[0] == a && p.keys == rest.keys)
      && (IsPrivate(a) ==>
            && p.artifacts[0] == WithPublicKey(a, gen(next).publicKey)
            && p.keys == [DeployKey(Href(a), gen(next).privateKey)] + rest.keys)
  {
    assert WellFormed(artifacts[0]);
  }

  /** What the key loop did to artifact `i`: it keeps its content unless it
      is private; a private one is given the public half of the key pair
      generated for it, and the deploy key at its position among the private
      artifacts is its repository with the private half. */
  predicate ArtifactProvisioned(artifacts: seq<Value>, gen: nat -> KeyPair, next: nat, i: int, p: Provisioned)
    requires 0 <= i < |artifacts| == |p.artifacts|
  {
    var before := PrivateCount(artifacts[..i]);
    var kp := gen(next + before);
    && WellFormed(artifacts[i])
    && (!IsPrivate(artifacts[i]) ==> p.artifacts[i] == artifacts[i])
    && (IsPrivate(artifacts[i]) ==>
          && before < |p.keys|
          && p.artifacts[i] == WithPublicKey(artifacts[i], kp.publicKey)
          && p.keys[before] == DeployKey(Href(artifacts[i]), kp.privateKey))
  }

  /** Every artifact is provisioned as `ArtifactProvisioned` says. */
  lemma {:induction false} ProvisionedArtifact(artifacts: seq<Value>, gen: nat -> KeyPair, next: nat, i: int)
    requires ProvisionAll(artifacts, gen, next).Ok? && 0 <= i < |artifacts|
    ensures ArtifactProvisioned(artifacts, gen, next, i, ProvisionAll(artifacts, gen, next).value)
    decreases |artifacts|
  {
    ProvisionStep(artifacts, gen, next);
    var p := ProvisionAll(artifacts, gen, next).value;
    if i > 0 {
      var shift := if IsPrivate(artifacts[0]) then 1 else 0;
      var rest := ProvisionAll(artifacts[1..], gen, next + shift).value;
      ProvisionedArtifact(artifacts[1..], gen, next + shift, i - 1);
      ProvisionedLater(artifacts, gen, next, i, p, rest);
    } else {
      assert artifacts[..0] == [];
    }
  }

  /** The induction step of `ProvisionedArtifact`, over the loop's outcomes
      for all the artifacts (`p`) and for all but the first (`rest`). */
  lemma ProvisionedLater(artifacts: seq<Value>, gen: nat -> KeyPair, next: nat, i: int,
                         p: Provisioned, rest: Provisioned)
    requires 0 < i < |artifacts| == |p.artifacts|
    requires p.artifacts[1..] == rest.artifacts
    requires !IsPrivate(artifacts[0]) ==> p.keys == rest.keys
    requires IsPrivate(artifacts[0]) ==> |p.keys| > 0 && p.keys[1..] == rest.keys
    requires ArtifactProvisioned(artifacts[1..], gen, next + (if IsPrivate(artifacts[0]) then 1 else 0), i - 1, rest)
    ensures ArtifactProvisioned(artifacts, gen, next, i, p)
  {
    PrivateCountPrefix(artifacts, i);
    assert artifacts[i] == artifacts[1..][i - 1];
  }

  /** The private artifacts before position `i` are the first artifact, if
      private, and those before position `i - 1` of the rest. */
  lemma PrivateCountPrefix(artifacts: seq<Value>, i: int)
    requires 0 < i <= |artifacts|
    ensures PrivateCount(artifacts[..i])
      == (if IsPrivate(artifacts[0]) then 1 else 0) + PrivateCount(artifacts[1..][..i - 1])
  {
    assert artifacts[..i][1..] == artifacts[1..][..i - 1];
  }

  /** An artifact that is not private never gets a key, and every private
      one does: the number of keys is the number of private artifacts, and
      a plan without private artifacts provisions nothing. */
  lemma NoPrivateNoKeys(artifacts: seq<Value>, gen: nat -> KeyPair, next: nat)
    requires ProvisionAll(artifacts, gen, next).Ok?
    requires forall i :: 0 <= i < |artifacts| ==> !IsPrivate(artifacts[i])
    ensures ProvisionAll(artifacts, gen, next).value == Provisioned(artifacts, [])
  {
    var p := ProvisionAll(artifacts, gen, next).value;
    forall i | 0 <= i < |artifacts| ensures p.artifacts[i] == artifacts[i] {
      ProvisionedArtifact(artifacts, gen, next, i);
    }
    NoPrivateCountsZero(artifacts);
  }

  lemma {:induction false} NoPrivateCountsZero(artifacts: seq<Value>)
    requires forall i :: 0 <= i < |artifacts| ==> !IsPrivate(artifacts[i])
    ensures PrivateCount(artifacts) == 0
    decreases |artifacts|
  {
    if |artifacts| > 0 {
      assert forall k :: 0 <= k < |artifacts[1..]| ==> artifacts[1..][k] == artifacts[k + 1];
      NoPrivateCountsZero(artifacts[1..]);
    }
  }

  // ---------------------------------------------------------------------
  // Where the keys are kept

  /** The handle the store returns, and the secrets file and service after. */
  datatype Stored = Stored(handle: Option<Handle>, shelf: map<string, seq<DeployKey>>,
                           vault: map<string, seq<DeployKey>>)

  /** Keeping the encoded keys: the database keeps the payload itself in the
      parameters; the local file keeps it under the plan uuid, which becomes
      the handle; barbican keeps it as a secret whose reference, returned by
      the service, becomes the handle. An unrecognised store keeps nothing. */
  function StoreKeys(store: ParamStore, keys: seq<DeployKey>, uuid: string, barbicanRef: string,
                     shelf: map<string, seq<DeployKey>>, vault: map<string, seq<DeployKey>>): (r: Stored)
    ensures r.handle.None? <==> store.Unrecognised?
    ensures store.Database? ==> r.handle == Some(Inline(keys))
    ensures store.LocalFile? ==> r.handle == Some(Ref(uuid)) && r.shelf == shelf[uuid := keys]
    ensures store.Barbican? ==> r.handle == Some(Ref(barbicanRef)) && r.vault == vault[barbicanRef := keys]
    ensures !store.LocalFile? ==> r.shelf == shelf
    ensures !store.Barbican? ==> r.vault == vault
  {
    match store
    case Database => Stored(Some(Inline(keys)), shelf, vault)
    case LocalFile => Stored(Some(Ref(uuid)), shelf[uuid := keys], vault)
    case Barbican => Stored(Some(Ref(barbicanRef)), shelf, vault[barbicanRef := keys])
    case Unrecognised(_) => Stored(None, shelf, vault)
  }

  /** Reading the keys back through a handle, as the worker does. */
  function FetchKeys(store: ParamStore, h: Handle, shelf: map<string, seq<DeployKey>>,
                     vault: map<string, seq<DeployKey>>): Option<seq<DeployKey>> {
    match h
    case Inline(payload) => Some(payload)
    case Ref(name) =>
      if store.LocalFile? && name in shelf then Some(shelf[name])
      else if store.Barbican? && name in vault then Some(vault[name])
      else None
  }

  /** Whatever the store, the handle it returns reads back the keys stored. */
  lemma StoreThenFetch(store: ParamStore, keys: seq<DeployKey>, uuid: string, barbicanRef: string,
                       shelf: map<string, seq<DeployKey>>, vault: map<string, seq<DeployKey>>)
    ensures var s := StoreKeys(store, keys, uuid, barbicanRef, shelf, vault);
      s.handle.Some? ==> FetchKeys(store, s.handle.value, s.shelf, s.vault) == Some(keys)
  {
  }

  // ---------------------------------------------------------------------
  // Parameters

  /** `_create_params`: user parameters when truthy, system parameters when
      non-empty. */
  function CreateParams(userParams: Value, sysParams: map<string, Handle>): (p: ParamRecord)
    ensures p.userParams.Some? <==> Truthy(userParams)
    ensures p.userParams.Some? ==> p.userParams.value == userParams
    ensures p.sysParams.Some? <==> |sysParams| > 0
    ensures p.sysParams.Some? ==> p.sysParams.value == sysParams
  {
    ParamRecord(if Truthy(userParams) then Some(userParams) else None,
                if |sysParams| > 0 then Some(sysParams) else None)
  }

  /** The deploy-key handle a parameter record holds, if any. */
  function KeysHandle(p: ParamRecord): Option<Handle> {
    if p.sysParams.Some? && RepoDeployKeys in p.sysParams.value then Some(p.sysParams.value[RepoDeployKeys])
    else None
  }

  /** `_delete_params`: nothing without a parameter record; otherwise the
      external secret the handle names is removed for the local-file and
      barbican stores, and the record is destroyed. A handle the store does
      not hold fails the removal, and the record then stays. */
  function DeleteParams(st: PlanState, planId: nat, store: ParamStore): (r: Result<PlanState>)
    ensures planId !in st.params ==> r == Ok(st)
    ensures r.Ok? ==> planId !in r.value.params && r.value.plans == st.plans
    ensures r.Ok? ==> forall p :: p in st.params && p != planId ==> p in r.value.params && r.value.params[p] == st.params[p]
    ensures r.Ok? ==> r.value.shelf.Keys <= st.shelf.Keys && r.value.vault.Keys <= st.vault.Keys
    ensures r.Err? ==> planId in st.params && KeysHandle(st.params[planId]).Some?
    ensures r.Err? && store.LocalFile? && KeysHandle(st.params[planId]).value.Ref? ==>
      r.error == KeyError(KeysHandle(st.params[planId]).value.name)
  {
    if planId !in st.params then Ok(st)
    else
      var dropped := st.(params := st.params - {planId});
      match KeysHandle(st.params[planId])
      case None => Ok(dropped)
      case Some(h) =>
        match store
        case LocalFile =>
          if h.Ref? && h.name in st.shelf then Ok(dropped.(shelf := st.shelf - {h.name}))
          else Err(KeyError(if h.Ref? then h.name else RepoDeployKeys))
        case Barbican =>
          if h.Ref? && h.name in st.vault then Ok(dropped.(vault := st.vault - {h.name}))
          else Err(NotFound("secret"))
        case _ => Ok(dropped)
  }

  // ---------------------------------------------------------------------
  // The handler's operations

  /** The system parameters for the keys kept: the handle, when there were
      keys and the handle is non-empty. */
  function SysParams(keys: seq<DeployKey>, s: Stored): (m: map<string, Handle>)
    ensures RepoDeployKeys in m <==> |keys| > 0 && s.handle.Some? && HandleTruthy(s.handle.value)
    ensures m.Keys <= {RepoDeployKeys}
  {
    if |keys| > 0 && s.handle.Some? && HandleTruthy(s.handle.value) then map[RepoDeployKeys := s.handle.value]
    else map[]
  }

  /** The artifacts a plan document lists: `data.get('artifacts', [])`. */
  function ArtifactsOf(data: Document): Value {
    GetOr(data, "artifacts", List([]))
  }

  /** The `artifacts` values the key loop gets through: a list of
      well-formed artifacts; a string, whose characters are all skipped; or
      a mapping, whose keys are skipped unless one contains `content`. */
  predicate AcceptedArtifacts(artifacts: Value) {
    match artifacts
    case List(items) => forall i :: 0 <= i < |items| ==> WellFormed(items[i])
    case Str(_) => true
    case Dict(fields) => forall k :: k in fields ==> !Substring("content", k)
    case _ => false
  }

  /** How many of the listed artifacts are private. */
  function PrivateArtifacts(artifacts: Value): nat {
    if artifacts.List? then PrivateCount(artifacts.items) else 0
  }

  /** The key loop over whatever `artifacts` holds. A list is walked
      artifact by artifact; a string or a mapping is iterated as the strings
      it yields (characters, keys), none of which is private; anything else
      is not iterable. */
  function ProvisionPlan(artifacts: Value, gen: nat -> KeyPair): (r: Result<Provisioned>)
    ensures r.Ok? <==> AcceptedArtifacts(artifacts)
    ensures artifacts.List? ==> r == ProvisionAll(artifacts.items, gen, 0)
    ensures r.Ok? ==> |r.value.keys| == PrivateArtifacts(artifacts)
    ensures r.Ok? && !artifacts.List? ==> r.value == Provisioned([], [])
  {
    match artifacts
    case List(items) => ProvisionAll(items, gen, 0)
    case Str(_) => Ok(Provisioned([], []))
    case Dict(fields) =>
      if exists k :: k in fields && Substring("content", k) then Err(TypeError("artifact"))
      else Ok(Provisioned([], []))
    case _ => Err(TypeError("artifacts"))
  }

  /** Strings met by the key loop are never given a key: the loop gets
      through them exactly when none contains `content`, and then leaves them
      as they are. */
  lemma StringsSkipped(ks: seq<string>, gen: nat -> KeyPair, next: nat)
    ensures ProvisionAll(Strs(ks), gen, next).Ok? <==> forall i :: 0 <= i < |ks| ==> !Substring("content", ks[i])
    ensures ProvisionAll(Strs(ks), gen, next).Ok? ==>
      ProvisionAll(Strs(ks), gen, next).value == Provisioned(Strs(ks), [])
  {
    var items := Strs(ks);
    forall i | 0 <= i < |items|
      ensures !IsPrivate(items[i]) && (WellFormed(items[i]) <==> !Substring("content", ks[i]))
    {
    }
    if ProvisionAll(items, gen, next).Ok? {
      NoPrivateNoKeys(items, gen, next);
    }
  }

  /** A string of artifacts is walked character by character, and every
      character is skipped. */
  lemma StringArtifactsSkipped(s: string, gen: nat -> KeyPair)
    ensures ProvisionAll(Strs(Chars(s)), gen, 0) == Ok(Provisioned(Strs(Chars(s)), []))
    ensures ProvisionPlan(Str(s), gen) == Ok(Provisioned([], []))
  {
    var cs := Chars(s);
    forall i | 0 <= i < |cs| ensures !Substring("content", cs[i]) {
      ShortNoSubstring("content", cs[i]);
    }
    StringsSkipped(cs, gen, 0);
  }

  /** A mapping of artifacts, walked key by key in any order, gets through
      the loop exactly when `ProvisionPlan` accepts it, and provisions
      nothing. */
  lemma MappingArtifactsAsLoop(fields: map<string, Value>, ks: seq<string>, gen: nat -> KeyPair)
    requires forall k :: k in fields <==> k in ks
    ensures ProvisionAll(Strs(ks), gen, 0).Ok? <==> ProvisionPlan(Dict(fields), gen).Ok?
    ensures ProvisionAll(Strs(ks), gen, 0).Ok? ==> ProvisionAll(Strs(ks), gen, 0).value.keys == []
  {
    StringsSkipped(ks, gen, 0);
    if !ProvisionAll(Strs(ks), gen, 0).Ok? {
      var i :| 0 <= i < |ks| && Substring("content", ks[i]);
      assert ks[i] in fields;
    }
  }

  /** A plan document `create` accepts. */
  predicate CreatableDocument(data: Document) {
    AcceptedArtifacts(ArtifactsOf(data))
  }

  /** `create`: provision keys, keep them, store the plan under `uuid` with
      database id `newId` and its parameters beside it. The raw content is
      the document without `parameters`, its listed artifacts carrying their
      public keys. */
  function Create(st: PlanState, ctx: Context, data: Document, store: ParamStore, uuid: string,
                  newId: nat, gen: nat -> KeyPair, barbicanRef: string): (r: Result<PlanState>)
    ensures r.Ok? <==> CreatableDocument(data)
    ensures r.Ok? ==> uuid in r.value.plans && newId in r.value.params
    ensures r.Ok? ==> r.value.plans[uuid].id == newId && r.value.plans[uuid].uuid == uuid
    ensures r.Ok? ==> r.value.plans[uuid].userId == ctx.user && r.value.plans[uuid].projectId == ctx.tenant
    ensures r.Ok? ==> r.value.plans[uuid].name == (if "name" in data then Some(data["name"]) else None)
    ensures r.Ok? ==> "parameters" !in r.value.plans[uuid].rawContent
    ensures r.Ok? ==> r.value.plans[uuid].rawContent.Keys == data.Keys - {"parameters"}
    ensures r.Ok? ==> forall k :: k in data && k != "parameters" && k != "artifacts" ==>
      r.value.plans[uuid].rawContent[k] == data[k]
    ensures r.Ok? && "artifacts" in data && data["artifacts"].List? ==>
      r.value.plans[uuid].rawContent["artifacts"] == List(ProvisionAll(data["artifacts"].items, gen, 0).value.artifacts)
    ensures r.Ok? && "artifacts" in data && !data["artifacts"].List? ==>
      r.value.plans[uuid].rawContent["artifacts"] == data["artifacts"]
    ensures r.Ok? ==> (r.value.params[newId].userParams.Some? <==> Truthy(Get(data, "parameters")))
    ensures r.Ok? ==> ProvisionPlan(ArtifactsOf(data), gen).Ok?
    ensures r.Ok? ==>
      var keys := ProvisionPlan(ArtifactsOf(data), gen).value.keys;
      r.value.params[newId]
        == CreateParams(Get(data, "parameters"), SysParams(keys, KeptKeys(st, store, keys, uuid, barbicanRef)))
    ensures r.Ok? ==> forall u :: u in st.plans && u != uuid ==> u in r.value.plans && r.value.plans[u] == st.plans[u]
  {
    assert "artifacts" in data ==> ArtifactsOf(data) == data["artifacts"];
    match ProvisionPlan(ArtifactsOf(data), gen)
    case Err(e) => Err(e)
    case Ok(prov) => Ok(Record(st, ctx, data, store, uuid, newId, prov, barbicanRef))
  }

  /** The keys kept, when there are any. */
  function KeptKeys(st: PlanState, store: ParamStore, keys: seq<DeployKey>, uuid: string,
                    barbicanRef: string): Stored {
    if |keys| > 0 then StoreKeys(store, keys, uuid, barbicanRef, st.shelf, st.vault)
    else Stored(None, st.shelf, st.vault)
  }

  /** The second half of `create`, once the keys are provisioned: keep them,
      and store the plan and its parameters. */
  function Record(st: PlanState, ctx: Context, data: Document, store: ParamStore, uuid: string,
                  newId: nat, prov: Provisioned, barbicanRef: string): (r: PlanState)
    ensures uuid in r.plans && newId in r.params
    ensures r.plans[uuid].id == newId && r.plans[uuid].uuid == uuid
    ensures r.plans[uuid].userId == ctx.user && r.plans[uuid].projectId == ctx.tenant
    ensures r.plans[uuid].name == (if "name" in data then Some(data["name"]) else None)
    ensures r.plans[uuid].rawContent.Keys == data.Keys - {"parameters"}
    ensures forall k :: k in data && k != "parameters" && k != "artifacts" ==>
      r.plans[uuid].rawContent[k] == data[k]
    ensures "artifacts" in data && data["artifacts"].List? ==>
      r.plans[uuid].rawContent["artifacts"] == List(prov.artifacts)
    ensures "artifacts" in data && !data["artifacts"].List? ==>
      r.plans[uuid].rawContent["artifacts"] == data["artifacts"]
    ensures r.params[newId].userParams.Some? <==> Truthy(Get(data, "parameters"))
    ensures r.params[newId]
      == CreateParams(Get(data, "parameters"), SysParams(prov.keys, KeptKeys(st, store, prov.keys, uuid, barbicanRef)))
    ensures r.plans == st.plans[uuid := r.plans[uuid]]
  {
    var stored := KeptKeys(st, store, prov.keys, uuid, barbicanRef);
    var raw := Without(data, "parameters");
    var content := if "artifacts" in data && data["artifacts"].List? then raw["artifacts" := List(prov.artifacts)]
                   else raw;
    var plan := PlanRecord(newId, uuid, if "name" in data then Some(data["name"]) else None,
                           content, ctx.user, ctx.tenant);
    var params := CreateParams(Get(data, "parameters"), SysParams(prov.keys, stored));
    PlanState(st.plans[uuid := plan], st.params[newId := params], stored.shelf, stored.vault)
  }

  /** `get`: the plan stored under `uuid`. */
  function GetPlan(st: PlanState, uuid: string): (r: Result<PlanRecord>)
    ensures r.Ok? <==> uuid in st.plans
    ensures r.Ok? ==> r.value == st.plans[uuid]
    ensures r.Err? ==> r.error == NotFound("plan")
  {
    if uuid in st.plans then Ok(st.plans[uuid]) else Err(NotFound("plan"))
  }

  /** `update`: every key of the document but `parameters` is merged into the
      raw content, and the name changes only when the document has one. */
  function Update(st: PlanState, uuid: string, data: Document): (r: Result<PlanState>)
    ensures r.Ok? <==> uuid in st.plans
    ensures r.Ok? ==> uuid in r.value.plans
    ensures r.Ok? ==> var before := st.plans[uuid]; var after := r.value.plans[uuid];
      && after.rawContent.Keys == before.rawContent.Keys + (data.Keys - {"parameters"})
      && (forall k :: k in data && k != "parameters" ==> after.rawContent[k] == data[k])
      && (forall k :: k in before.rawContent && k !in data ==> after.rawContent[k] == before.rawContent[k])
      && ("parameters" in after.rawContent <==> "parameters" in before.rawContent)
      && after.name == (if "name" in data then Some(data["name"]) else before.name)
      && after.(rawContent := before.rawContent, name := before.name) == before
    ensures r.Ok? ==> r.value.params == st.params && r.value.shelf == st.shelf && r.value.vault == st.vault
    ensures r.Ok? ==> r.value.plans == st.plans[uuid := r.value.plans[uuid]]
    ensures r.Err? ==> r.error == NotFound("plan")
  {
    if uuid !in st.plans then Err(NotFound("plan"))
    else
      var plan := st.plans[uuid];
      var merged := plan.rawContent + Without(data, "parameters");
      var name := if "name" in data then Some(data["name"]) else plan.name;
      Ok(st.(plans := st.plans[uuid := plan.(rawContent := merged, name := name)]))
  }

  /** Updating twice with the same document is the same as updating once. */
  lemma UpdateIdempotent(st: PlanState, uuid: string, data: Document)
    requires uuid in st.plans
    ensures Update(Update(st, uuid, data).value, uuid, data) == Update(st, uuid, data)
  {
    var once := Update(st, uuid, data).value;
    var twice := Update(once, uuid, data).value;
    MergeTwice(st.plans[uuid].rawContent, Without(data, "parameters"));
    assert twice.plans[uuid] == once.plans[uuid];
    assert twice.plans == once.plans;
  }

  /** Merging the same changes twice is merging them once. */
  lemma MergeTwice(m: Document, changes: Document)
    ensures m + changes + changes == m + changes
  {
  }

  /** What a deletion leaves: the state, and the exception it raised. The
      parameters are gone even when destroying the plan then fails. */
  datatype Deletion = Deletion(state: PlanState, failure: Option<Error>)

  /** `delete`: look the plan up, delete its parameters, then destroy the
      plan; `destroyError` is what the database's destroy raises, if
      anything. */
  function Delete(st: PlanState, uuid: string, store: ParamStore, destroyError: Option<Error>): (r: Deletion)
    ensures uuid !in st.plans ==> r == Deletion(st, Some(NotFound("plan")))
    ensures r.failure.None? ==>
      uuid in st.plans && uuid !in r.state.plans && st.plans[uuid].id !in r.state.params
    ensures uuid in st.plans && DeleteParams(st, st.plans[uuid].id, store).Ok? && destroyError.Some? ==>
      r.failure == destroyError && st.plans[uuid].id !in r.state.params && uuid in r.state.plans
    ensures uuid in st.plans && DeleteParams(st, st.plans[uuid].id, store).Ok? && destroyError.None? ==>
      var cleared := DeleteParams(st, st.plans[uuid].id, store).value;
      r == Deletion(cleared.(plans := cleared.plans - {uuid}), None)
    ensures uuid in st.plans && DeleteParams(st, st.plans[uuid].id, store).Err? ==>
      r == Deletion(st, Some(DeleteParams(st, st.plans[uuid].id, store).error))
    ensures forall u :: u in st.plans && u != uuid ==> u in r.state.plans && r.state.plans[u] == st.plans[u]
    ensures r.state.plans.Keys <= st.plans.Keys
  {
    if uuid !in st.plans then Deletion(st, Some(NotFound("plan")))
    else
      match DeleteParams(st, st.plans[uuid].id, store)
      case Err(e) => Deletion(st, Some(e))
      case Ok(cleared) =>
        if destroyError.Some? then Deletion(cleared, destroyError)
        else Deletion(cleared.(plans := cleared.plans - {uuid}), None)
  }

  // ---------------------------------------------------------------------
  // Properties across operations

  /** Deleting the parameters of a record added to `st` gives back the
      parameters of `st`, and removes the secret the handle names when the
      store keeps one. */
  lemma DeleteAddedParams(st: PlanState, added: PlanState, planId: nat, store: ParamStore, p: ParamRecord)
    requires planId !in st.params && added.params == st.params[planId := p]
    ensures KeysHandle(p).None? || store.Database? || store.Unrecognised? ==>
      DeleteParams(added, planId, store) == Ok(added.(params := st.params))
    ensures (store.LocalFile? && KeysHandle(p).Some? && KeysHandle(p).value.Ref?
             && KeysHandle(p).value.name in added.shelf) ==>
      DeleteParams(added, planId, store)
        == Ok(added.(params := st.params, shelf := added.shelf - {KeysHandle(p).value.name}))
    ensures (store.Barbican? && KeysHandle(p).Some? && KeysHandle(p).value.Ref?
             && KeysHandle(p).value.name in added.vault) ==>
      DeleteParams(added, planId, store)
        == Ok(added.(params := st.params, vault := added.vault - {KeysHandle(p).value.name}))
  {
    assert added.params - {planId} == st.params;
  }

  /** The parameter deletion of a freshly recorded plan removes its
      parameters and the secret it kept, and nothing else. */
  lemma RecordedParamsDeleted(st: PlanState, ctx: Context, data: Document, store: ParamStore, uuid: string,
                              newId: nat, prov: Provisioned, barbicanRef: string)
    requires newId !in st.params && uuid !in st.shelf && barbicanRef !in st.vault
    requires |uuid| > 0 && |barbicanRef| > 0
    ensures var recorded := Record(st, ctx, data, store, uuid, newId, prov, barbicanRef);
      DeleteParams(recorded, newId, store) == Ok(recorded.(params := st.params, shelf := st.shelf, vault := st.vault))
  {
    var recorded := Record(st, ctx, data, store, uuid, newId, prov, barbicanRef);
    var stored := KeptKeys(st, store, prov.keys, uuid, barbicanRef);
    var params := CreateParams(Get(data, "parameters"), SysParams(prov.keys, stored));
    DeleteAddedParams(st, recorded, newId, store, params);
    if |prov.keys| == 0 {
      assert KeysHandle(params).None?;
    } else if store.LocalFile? {
      assert KeysHandle(params) == Some(Ref(uuid));
      RemoveAdded(st.shelf, uuid, prov.keys);
    } else if store.Barbican? {
      assert KeysHandle(params) == Some(Ref(barbicanRef));
      RemoveAdded(st.vault, barbicanRef, prov.keys);
    }
  }

  /** Deleting a freshly created plan gives back the state before it: the
      plan, its parameters and the secret it kept are all gone. */
  lemma CreateThenDelete(st: PlanState, ctx: Context, data: Document, store: ParamStore, uuid: string,
                         newId: nat, gen: nat -> KeyPair, barbicanRef: string)
    requires CreatableDocument(data)
    requires uuid !in st.plans && newId !in st.params
    requires uuid !in st.shelf && barbicanRef !in st.vault
    requires |uuid| > 0 && |barbicanRef| > 0
    ensures Delete(Create(st, ctx, data, store, uuid, newId, gen, barbicanRef).value, uuid, store, None)
      == Deletion(st, None)
  {
    var prov := ProvisionPlan(ArtifactsOf(data), gen).value;
    var created := Record(st, ctx, data, store, uuid, newId, prov, barbicanRef);
    assert Create(st, ctx, data, store, uuid, newId, gen, barbicanRef).value == created;
    RecordedParamsDeleted(st, ctx, data, store, uuid, newId, prov, barbicanRef);
    RemoveAdded(st.plans, uuid, created.plans[uuid]);
  }

  lemma RemoveAdded<K, V>(m: map<K, V>, k: K, v: V)
    requires k !in m
    ensures m[k := v] - {k} == m
  {
  }

  /** No plan the handler writes holds `parameters` in its raw content: a
      created plan never does, and an update never introduces it. */
  lemma NoParametersInRawContent(st: PlanState, ctx: Context, data: Document, store: ParamStore,
                                 uuid: string, newId: nat, gen: nat -> KeyPair, barbicanRef: string,
                                 changes: Document)
    requires CreatableDocument(data)
    ensures var created := Create(st, ctx, data, store, uuid, newId, gen, barbicanRef).value;
      var updated := Update(created, uuid, changes).value;
      "parameters" !in updated.plans[uuid].rawContent
  {
  }

  /** Recording provisioned keys: `REPO_DEPLOY_KEYS` is set exactly when
      there are keys and the store returned a non-empty handle, and the
      handle reads back those keys. */
  lemma RecordedDeployKeys(st: PlanState, ctx: Context, data: Document, store: ParamStore, uuid: string,
                           newId: nat, prov: Provisioned, barbicanRef: string)
    ensures var recorded := Record(st, ctx, data, store, uuid, newId, prov, barbicanRef);
      var h := KeysHandle(recorded.params[newId]);
      && (h.Some? <==>
            && |prov.keys| > 0
            && (store.Database? || (store.LocalFile? && |uuid| > 0) || (store.Barbican? && |barbicanRef| > 0)))
      && (h.Some? ==> FetchKeys(store, h.value, recorded.shelf, recorded.vault) == Some(prov.keys))
  {
    if |prov.keys| > 0 {
      StoreThenFetch(store, prov.keys, uuid, barbicanRef, st.shelf, st.vault);
    }
  }

  /** `REPO_DEPLOY_KEYS` is recorded exactly when the plan has a private
      artifact and the store returned a non-empty handle, and the handle
      reads back the plan's deploy keys. */
  lemma DeployKeysRecorded(st: PlanState, ctx: Context, data: Document, store: ParamStore, uuid: string,
                           newId: nat, gen: nat -> KeyPair, barbicanRef: string)
    requires CreatableDocument(data)
    ensures var created := Create(st, ctx, data, store, uuid, newId, gen, barbicanRef).value;
      var prov := ProvisionPlan(ArtifactsOf(data), gen).value;
      var h := KeysHandle(created.params[newId]);
      && (h.Some? <==>
            && PrivateArtifacts(ArtifactsOf(data)) > 0
            && (store.Database? || (store.LocalFile? && |uuid| > 0) || (store.Barbican? && |barbicanRef| > 0)))
      && (h.Some? ==> FetchKeys(store, h.value, created.shelf, created.vault) == Some(prov.keys))
  {
    var prov := ProvisionPlan(ArtifactsOf(data), gen).value;
    RecordedDeployKeys(st, ctx, data, store, uuid, newId, prov, barbicanRef);
  }
}

=== FILE: routing.dfy ===
/** URL routing shared by the collection controllers: `_lookup` hands the
    rest of the path to the item controller after dropping one trailing
    empty segment, which a trailing slash produces. */
module Routing {

  /** The remainder `_lookup` passes on. */
  function DropTrailingEmpty(remainder: seq<string>): (r: seq<string>)
    ensures |r| <= |remainder| && r == remainder[..|r|]
    ensures remainder == r || remainder == r + [""]
    ensures remainder != r <==> |remainder| > 0 && remainder[|remainder| - 1] == ""
  {
    if |remainder| > 0 && remainder[|remainder| - 1] == "" then remainder[..|remainder| - 1]
    else remainder
  }

  /** Only one empty segment is dropped: a path ending in two slashes keeps
      one empty segment. */
  lemma DropsOnlyOne(path: seq<string>)
    ensures DropTrailingEmpty(path + ["", ""]) == path + [""]
  {
    assert (path + ["", ""])[..|path| + 1] == path + [""];
  }

  /** A trailing slash does not change where a path leads. */
  lemma TrailingSlashIgnored(path: seq<string>)
    requires |path| == 0 || path[|path| - 1] != ""
    ensures DropTrailingEmpty(path + [""]) == DropTrailingEmpty(path) == path
  {
    assert (path + [""])[..|path|] == path;
  }
}

=== FILE: shell_worker.dfy ===
/** The shell worker: it unit-tests and builds one artifact by running the
    tool scripts the resolver names, reports each step, and asks the deployer
    to deploy a built image. The worker's own observable behaviour is a trace
    of events: the processes it starts, the image-job updates it sends to the
    conductor, the assembly status updates it makes and the deploy requests it
    casts. A process is seen only through its exit code and its output. */
module ShellWorker {
  import opened Values
  import opened Outcomes
  import opened Text
  import opened Contexts
  import opened Secrets
  import opened BuildCommand
  import I = ImageStates
  import A = AssemblyStates

  /** The worker's configuration: the project directory that holds `contrib/`. */
  datatype WorkerConfig = WorkerConfig(projectDir: string)

  /** The arguments of the worker's `build` and `unittest` endpoints. */
  datatype BuildJob = BuildJob(
    buildId: Value,
    gitInfo: Document,
    name: Value,
    baseImageId: Value,
    sourceFormat: Value,
    imageFormat: Value,
    assemblyId: Value,
    testCmd: Value,
    sourceCredsRef: Value)

  /** One `build_job_update` cast to the conductor. */
  datatype JobUpdate = JobUpdate(buildId: Value, state: I.ImageState, description: string,
                                 imageId: Option<string>, assemblyId: Value)

  /** One `update_assembly_status` call. */
  datatype AssemblyUpdate = AssemblyUpdate(assemblyId: Value, status: A.AssemblyState)

  /** One deploy request cast to the deployer. */
  datatype DeployRequest = DeployRequest(assemblyId: Value, imageId: string)

  /** What a job does, as each collaborator sees it: the processes started,
      the job updates, the assembly status updates and the deploy requests,
      each in order; and the exception that ended the job early, if any. */
  datatype Run = Run(
    popens: seq<seq<Value>>,
    jobUpdates: seq<JobUpdate>,
    assemblyUpdates: seq<AssemblyUpdate>,
    deploys: seq<DeployRequest>,
    failure: Option<Error>)

  /** A job that stopped before doing anything. */
  function Stopped(e: Error): Run {
    Run([], [], [], [], Some(e))
  }

  /** One run followed by another. */
  function Then(a: Run, b: Run): Run {
    Run(a.popens + b.popens, a.jobUpdates + b.jobUpdates, a.assemblyUpdates + b.assemblyUpdates,
        a.deploys + b.deploys, b.failure)
  }

  // ---------------------------------------------------------------------
  // Private keys for authenticated clones

  /** The private key recorded for a repository: the last record whose
      source url matches, or the empty string when none does. */
  function KeyFor(keys: seq<DeployKey>, sourceUrl: Value): string
    decreases |keys|
  {
    if |keys| == 0 then ""
    else if keys[|keys| - 1].sourceUrl == sourceUrl then keys[|keys| - 1].privateKey
    else KeyFor(keys[..|keys| - 1], sourceUrl)
  }

  /** Record `j` is the last one for `sourceUrl`. */
  predicate LastRecordFor(keys: seq<DeployKey>, sourceUrl: Value, j: int) {
    && 0 <= j < |keys|
    && keys[j].sourceUrl == sourceUrl
    && forall k :: j < k < |keys| ==> keys[k].sourceUrl != sourceUrl
  }

  /** The key found is the one of the last matching record. */
  lemma {:induction false} KeyForLastRecord(keys: seq<DeployKey>, sourceUrl: Value, j: int)
    requires LastRecordFor(keys, sourceUrl, j)
    ensures KeyFor(keys, sourceUrl) == keys[j].privateKey
    decreases |keys|
  {
    if j < |keys| - 1 {
      var front := keys[..|keys| - 1];
      assert LastRecordFor(front, sourceUrl, j) by {
        forall k | j < k < |front| ensures front[k].sourceUrl != sourceUrl {
          assert front[k] == keys[k];
        }
      }
      KeyForLastRecord(front, sourceUrl, j);
    }
  }

  /** Without a matching record the key is empty. */
  lemma {:induction false} KeyForNoRecord(keys: seq<DeployKey>, sourceUrl: Value)
    requires forall k :: 0 <= k < |keys| ==> keys[k].sourceUrl != sourceUrl
    ensures KeyFor(keys, sourceUrl) == ""
    decreases |keys|
  {
    if |keys| > 0 {
      var front := keys[..|keys| - 1];
      assert forall k :: 0 <= k < |front| ==> front[k] == keys[k];
      KeyForNoRecord(front, sourceUrl);
    }
  }

  /** The private key argument of a tool script: empty without a
      `source_creds_ref`, otherwise the key the stored deploy-key records
      (looked up through that reference) hold for the source url. */
  function PrivateKey(sourceCredsRef: Value, stored: seq<DeployKey>, sourceUrl: Value): string {
    if Truthy(sourceCredsRef) then KeyFor(stored, sourceUrl) else ""
  }

  // ---------------------------------------------------------------------
  // Reading the build output

  /** The marker line a build tool prints for the image it created. */
  const ImageMarker: string := "created_image_id="

  /** The stripped value of a marker line, or None for any other line. */
  function MarkerValue(line: string): (r: Option<string>)
    ensures r.Some? <==> StartsWith(line, ImageMarker)
    ensures r.Some? && |r.value| > 0 ==> !IsSpace(r.value[0]) && !IsSpace(r.value[|r.value| - 1])
  {
    if StartsWith(line, ImageMarker) then Some(Strip(line[|ImageMarker|..])) else None
  }

  /** The value of the last marker line. */
  function LastMarker(lines: seq<string>): (r: Option<string>)
    ensures r.Some? && |r.value| > 0 ==> !IsSpace(r.value[0]) && !IsSpace(r.value[|r.value| - 1])
    decreases |lines|
  {
    if |lines| == 0 then None
    else match MarkerValue(lines[|lines| - 1])
      case Some(v) => Some(v)
      case None => LastMarker(lines[..|lines| - 1])
  }

  /** Line `j` is the last marker line. */
  predicate LastMarkerLine(lines: seq<string>, j: int) {
    && 0 <= j < |lines|
    && MarkerValue(lines[j]).Some?
    && forall k :: j < k < |lines| ==> MarkerValue(lines[k]).None?
  }

  /** The value read is the one of the last marker line. */
  lemma {:induction false} LastMarkerOfLastLine(lines: seq<string>, j: int)
    requires LastMarkerLine(lines, j)
    ensures LastMarker(lines) == MarkerValue(lines[j])
    decreases |lines|
  {
    if j < |lines| - 1 {
      var front := lines[..|lines| - 1];
      assert LastMarkerLine(front, j) by {
        forall k | j < k < |front| ensures MarkerValue(front[k]).None? {
          assert front[k] == lines[k];
        }
      }
      LastMarkerOfLastLine(front, j);
    }
  }

  /** An output with no marker line reads as no image at all. */
  lemma {:induction false} LastMarkerAbsent(lines: seq<string>)
    requires forall k :: 0 <= k < |lines| ==> MarkerValue(lines[k]).None?
    ensures LastMarker(lines) == None
    decreases |lines|
  {
    if |lines| > 0 {
      var front := lines[..|lines| - 1];
      assert forall k :: 0 <= k < |front| ==> front[k] == lines[k];
      LastMarkerAbsent(front);
    }
  }

  /** The image a build created: the last marker value of its output, when
      that value is not blank. */
  function BuiltImage(output: string): (r: Option<string>)
    ensures r.Some? ==> |r.value| > 0 && !IsSpace(r.value[0]) && !IsSpace(r.value[|r.value| - 1])
  {
    match LastMarker(Split(output, '\n'))
    case Some(v) => if |v| > 0 then Some(v) else None
    case None => None
  }

  /** A marker line's value. */
  lemma MarkerOf(value: string)
    ensures MarkerValue(ImageMarker + value) == Some(Strip(value))
    ensures '\n' !in value ==> '\n' !in ImageMarker + value
  {
    var line := ImageMarker + value;
    assert line[..|ImageMarker|] == ImageMarker;
    assert line[|ImageMarker|..] == value;
    if '\n' !in value {
      forall k | 0 <= k < |line| ensures line[k] != '\n' {
        if k >= |ImageMarker| {
          assert line[k] == value[k - |ImageMarker|];
        }
      }
    }
  }

  /** An output whose last line is the marker followed by an image id
      creates that image, whatever came before. */
  lemma BuiltImageOfLastLine(before: string, id: string)
    requires |id| > 0 && NoSpace(id) && '\n' !in id
    ensures BuiltImage(before + "\n" + ImageMarker + id) == Some(id)
  {
    var last := ImageMarker + id;
    MarkerOf(id);
    assert before + "\n" + ImageMarker + id == before + ['\n'] + last;
    SplitAround(before, last, '\n');
    SplitWithoutSeparator(last, '\n');
    var lines := Split(before, '\n') + [last];
    assert LastMarkerLine(lines, |lines| - 1);
    LastMarkerOfLastLine(lines, |lines| - 1);
  }

  /** A marker with a blank value, followed by a final newline, creates no
      image. */
  lemma BlankMarkerCreatesNothing(before: string, blank: string)
    requires forall k :: 0 <= k < |blank| ==> IsSpace(blank[k]) && blank[k] != '\n'
    ensures BuiltImage(before + "\n" + ImageMarker + blank + "\n") == None
  {
    var marked := ImageMarker + blank;
    var output := before + "\n" + ImageMarker + blank + "\n";
    assert '\n' !in blank;
    MarkerOf(blank);
    StripOfSpaces(blank);
    assert output == before + ['\n'] + (marked + ['\n'] + "");
    SplitAround(before, marked + ['\n'] + "", '\n');
    SplitAround(marked, "", '\n');
    SplitWithoutSeparator(marked, '\n');
    var lines := Split(before, '\n') + [marked] + [""];
    assert MarkerValue("") == None;
    assert LastMarkerLine(lines, |lines| - 2);
    LastMarkerOfLastLine(lines, |lines| - 2);
    assert Split(output, '\n') == lines;
    assert LastMarker(lines) == Some("");
  }


  /** The job updates move an image forward only: each update is a later
      lifecycle stage than the one before. */
  predicate Forward(updates: seq<JobUpdate>) {
    forall i, j :: 0 <= i < j < |updates| ==> I.Stage(updates[i].state) < I.Stage(updates[j].state)
  }

  /** What a job reports is consistent: the image only moves forward and
      ends in a terminal state, and at most one deploy is requested, exactly
      when the job reported COMPLETE, for the job's assembly and the image
      the COMPLETE update named. */
  predicate Reported(job: BuildJob, r: Run) {
    Consistent(job, r.jobUpdates, r.deploys)
  }

  /** `Reported`, over the job updates and deploy requests alone. */
  predicate Consistent(job: BuildJob, updates: seq<JobUpdate>, deploys: seq<DeployRequest>) {
    && Forward(updates)
    && (|updates| > 0 ==> I.Terminal(updates[|updates| - 1].state))
    && |deploys| <= 1
    && (|deploys| == 1 <==> exists u :: u in updates && u.state == I.Complete)
    && (forall d :: d in deploys ==>
          d.assemblyId == job.assemblyId
          && JobUpdate(job.buildId, I.Complete, "built successfully", Some(d.imageId), job.assemblyId)
             in updates)
  }

  // ---------------------------------------------------------------------
  // The two stages of a job

  /** The unit-test stage: the assembly goes UNIT_TESTING, the unittest
      script runs, and a nonzero exit code marks the assembly
      UNIT_TESTING_FAILED. */
  function UnitTestRun(cfg: WorkerConfig, ctx: Context, job: BuildJob, key: string,
                       exitCode: int): (r: Run)
    ensures r.jobUpdates == [] && r.deploys == []
    ensures r.failure.None? <==> Runnable(job)
    ensures "source_url" !in job.gitInfo ==> r == Stopped(KeyError("source_url"))
    ensures "source_url" in job.gitInfo && !Runnable(job) ==>
      r == Stopped(UnknownFormat(job.sourceFormat, job.imageFormat))
    ensures Runnable(job) ==>
      && r.popens == [Argv(cfg, ctx, job, UnittestStage, key)]
      && |r.assemblyUpdates| == (if exitCode == 0 then 1 else 2)
      && r.assemblyUpdates[0] == AssemblyUpdate(job.assemblyId, A.UnitTesting)
      && (exitCode != 0 ==> r.assemblyUpdates[1] == AssemblyUpdate(job.assemblyId, A.UnitTestingFailed))
  {
    match Index(job.gitInfo, "source_url")
    case Err(e) => Stopped(e)
    case Ok(url) =>
      match Command(cfg.projectDir, UnittestStage, url, job.name, ctx.tenant, job.baseImageId,
                    job.sourceFormat, job.imageFormat, key, job.testCmd)
      case Err(e) => Stopped(e)
      case Ok(argv) =>
        Run([argv], [],
            [AssemblyUpdate(job.assemblyId, A.UnitTesting)]
            + (if exitCode == 0 then [] else [AssemblyUpdate(job.assemblyId, A.UnitTestingFailed)]),
            [], None)
  }

  /** The build stage: the assembly goes BUILDING, the job is reported
      BUILDING, the build script runs, and the job ends COMPLETE with the
      created image and a deploy request, or ERROR without either. */
  function BuildRun(cfg: WorkerConfig, ctx: Context, job: BuildJob, key: string,
                    output: string): (r: Run)
    ensures Reported(job, r)
    ensures |r.popens| <= 1
    ensures forall u :: u in r.assemblyUpdates ==> u == AssemblyUpdate(job.assemblyId, A.Building)
  {
    match Index(job.gitInfo, "source_url")
    case Err(e) => Stopped(e)
    case Ok(url) =>
      match Command(cfg.projectDir, BuildStage, url, job.name, ctx.tenant, job.baseImageId,
                    job.sourceFormat, job.imageFormat, key, job.testCmd)
      case Err(e) => Stopped(e)
      case Ok(argv) => ImageBuild(job, argv, BuiltImage(output))
  }

  /** The build script's run and what follows from the image its output
      names: the job reported BUILDING, then COMPLETE with the created image
      and a deploy request, or ERROR without either. */
  function ImageBuild(job: BuildJob, argv: seq<Value>, built: Option<string>): (r: Run)
    ensures Reported(job, r)
    ensures r.popens == [argv] && r.failure.None?
    ensures r.assemblyUpdates == [AssemblyUpdate(job.assemblyId, A.Building)]
    ensures r.deploys == [] <==> built.None?
    ensures built.Some? ==> r.deploys == [DeployRequest(job.assemblyId, built.value)]
  {
    var started := JobUpdate(job.buildId, I.Building, "Starting the image build", None, job.assemblyId);
    var building := [AssemblyUpdate(job.assemblyId, A.Building)];
    match built
    case Some(id) =>
      var done := JobUpdate(job.buildId, I.Complete, "built successfully", Some(id), job.assemblyId);
      var r := Run([argv], [started, done], building, [DeployRequest(job.assemblyId, id)], None);
      ForwardPair(started, done);
      assert done in r.jobUpdates;
      r
    case None =>
      var failed := JobUpdate(job.buildId, I.Error, "image not created", None, job.assemblyId);
      var r := Run([argv], [started, failed], building, [], None);
      ForwardPair(started, failed);
      assert forall u :: u in r.jobUpdates ==> u.state != I.Complete;
      r
  }

  /** Two updates in lifecycle order move forward. */
  lemma ForwardPair(a: JobUpdate, b: JobUpdate)
    requires I.Stage(a.state) < I.Stage(b.state)
    ensures Forward([a, b])
  {
  }

  /** The private key a job's tool scripts receive. */
  function JobKey(job: BuildJob, stored: seq<DeployKey>): string {
    PrivateKey(job.sourceCredsRef, stored, Get(job.gitInfo, "source_url"))
  }

  /** The `unittest` endpoint: the unit-test stage alone. */
  function Unittest(cfg: WorkerConfig, ctx: Context, job: BuildJob, stored: seq<DeployKey>,
                    exitCode: int): (r: Run)
    ensures r.jobUpdates == [] && r.deploys == []
    ensures r.failure.None? <==> Runnable(job)
    ensures Runnable(job) ==>
      && r.popens == [Argv(cfg, ctx, job, UnittestStage, JobKey(job, stored))]
      && |r.assemblyUpdates| == (if exitCode == 0 then 1 else 2)
      && r.assemblyUpdates[0] == AssemblyUpdate(job.assemblyId, A.UnitTesting)
      && (exitCode != 0 ==> r.assemblyUpdates[1] == AssemblyUpdate(job.assemblyId, A.UnitTestingFailed))
  {
    UnitTestRun(cfg, ctx, job, JobKey(job, stored), exitCode)
  }

  /** The `unittest` endpoint does what the unit-test stage of `build` does:
      when the tests fail, the two endpoints leave the same trace. */
  lemma UnittestIsBuildTestStage(cfg: WorkerConfig, ctx: Context, job: BuildJob,
                                 stored: seq<DeployKey>, exitCode: int, output: string)
    requires Truthy(job.testCmd) && exitCode != 0
    ensures Unittest(cfg, ctx, job, stored, exitCode) == Build(cfg, ctx, job, stored, exitCode, output)
  {
  }

  /** The `build` endpoint: unit tests first when a test command is set, and
      the image build only when they pass. `exitCode` is the unittest
      script's exit code and `output` the build script's output. */
  function Build(cfg: WorkerConfig, ctx: Context, job: BuildJob, stored: seq<DeployKey>,
                 exitCode: int, output: string): (r: Run)
    ensures Reported(job, r)
    ensures Truthy(job.testCmd) && exitCode != 0 ==>
      r.jobUpdates == [] && r.deploys == [] && |r.popens| <= 1
    ensures !Truthy(job.testCmd) ==> forall u :: u in r.assemblyUpdates ==> u.status == A.Building
  {
    var key := JobKey(job, stored);
    if Truthy(job.testCmd) then
      var tests := UnitTestRun(cfg, ctx, job, key, exitCode);
      if tests.failure.Some? || exitCode != 0 then tests
      else
        var built := BuildRun(cfg, ctx, job, key, output);
        QuietThenReported(job, tests, built);
        Then(tests, built)
    else BuildRun(cfg, ctx, job, key, output)
  }

  /** A stage that reports nothing and deploys nothing keeps what the next
      stage reports consistent. */
  lemma QuietThenReported(job: BuildJob, a: Run, b: Run)
    requires a.jobUpdates == [] && a.deploys == [] && Reported(job, b)
    ensures Reported(job, Then(a, b))
  {
    var t := Then(a, b);
    assert t.jobUpdates == b.jobUpdates && t.deploys == b.deploys;
  }

  // ---------------------------------------------------------------------
  // The scenarios the worker's tests pin

  /** A job the worker can run: it names its source and a known format pair. */
  predicate Runnable(job: BuildJob) {
    && "source_url" in job.gitInfo
    && ToolTree(job.sourceFormat).Some?
    && ImageVariant(job.imageFormat).Some?
  }

  /** The argument vector of one stage of a runnable job. */
  function Argv(cfg: WorkerConfig, ctx: Context, job: BuildJob, stage: BuildCommand.Stage,
                key: string): seq<Value>
    requires Runnable(job)
  {
    Command(cfg.projectDir, stage, job.gitInfo["source_url"], job.name, ctx.tenant,
            job.baseImageId, job.sourceFormat, job.imageFormat, key, job.testCmd).value
  }

  /** Without a test command, an output ending in a marker line with an
      image id gives exactly the updates [BUILDING, COMPLETE(id)], one build
      process, and exactly one deploy of that image. */
  lemma BuildDeploysCreatedImage(cfg: WorkerConfig, ctx: Context, job: BuildJob,
                                 stored: seq<DeployKey>, exitCode: int, before: string, id: string)
    requires Runnable(job) && !Truthy(job.testCmd)
    requires |id| > 0 && NoSpace(id) && '\n' !in id
    ensures var r := Build(cfg, ctx, job, stored, exitCode, before + "\n" + ImageMarker + id);
      && r.failure.None?
      && r.popens == [Argv(cfg, ctx, job, BuildStage, JobKey(job, stored))]
      && r.jobUpdates == [JobUpdate(job.buildId, I.Building, "Starting the image build", None, job.assemblyId),
                          JobUpdate(job.buildId, I.Complete, "built successfully", Some(id), job.assemblyId)]
      && r.deploys == [DeployRequest(job.assemblyId, id)]
  {
    BuiltImageOfLastLine(before, id);
  }

  /** Without a test command, a blank image id gives the updates
      [BUILDING, ERROR("image not created")] and no deploy. */
  lemma BuildWithBlankImageFails(cfg: WorkerConfig, ctx: Context, job: BuildJob,
                                 stored: seq<DeployKey>, exitCode: int, before: string, blank: string)
    requires Runnable(job) && !Truthy(job.testCmd)
    requires forall k :: 0 <= k < |blank| ==> IsSpace(blank[k]) && blank[k] != '\n'
    ensures var r := Build(cfg, ctx, job, stored, exitCode, before + "\n" + ImageMarker + blank + "\n");
      && r.failure.None?
      && r.jobUpdates == [JobUpdate(job.buildId, I.Building, "Starting the image build", None, job.assemblyId),
                          JobUpdate(job.buildId, I.Error, "image not created", None, job.assemblyId)]
      && r.deploys == []
  {
    BlankMarkerCreatesNothing(before, blank);
  }

  /** Passing tests and an output ending in a marker line with an image id:
      the assembly goes [UNIT_TESTING, BUILDING], the unittest script runs
      before the build script, the job updates are [BUILDING, COMPLETE(id)],
      and exactly one deploy of that image is requested. */
  lemma PassingTestsThenBuild(cfg: WorkerConfig, ctx: Context, job: BuildJob,
                              stored: seq<DeployKey>, before: string, id: string)
    requires Runnable(job) && Truthy(job.testCmd)
    requires |id| > 0 && NoSpace(id) && '\n' !in id
    ensures var r := Build(cfg, ctx, job, stored, 0, before + "\n" + ImageMarker + id);
      && r.failure.None?
      && r.assemblyUpdates == [AssemblyUpdate(job.assemblyId, A.UnitTesting),
                               AssemblyUpdate(job.assemblyId, A.Building)]
      && r.popens == [Argv(cfg, ctx, job, UnittestStage, JobKey(job, stored)),
                      Argv(cfg, ctx, job, BuildStage, JobKey(job, stored))]
      && r.jobUpdates == [JobUpdate(job.buildId, I.Building, "Starting the image build", None, job.assemblyId),
                          JobUpdate(job.buildId, I.Complete, "built successfully", Some(id), job.assemblyId)]
      && r.deploys == [DeployRequest(job.assemblyId, id)]
  {
    BuiltImageOfLastLine(before, id);
    PassingTestsTrace(cfg, ctx, job, stored, before + "\n" + ImageMarker + id);
    TestsThenImage(cfg, ctx, job, JobKey(job, stored), id);
  }

  /** Passing unit tests followed by the build of image `id`. */
  lemma TestsThenImage(cfg: WorkerConfig, ctx: Context, job: BuildJob, key: string, id: string)
    requires Runnable(job)
    ensures var r := Then(UnitTestRun(cfg, ctx, job, key, 0),
                          ImageBuild(job, Argv(cfg, ctx, job, BuildStage, key), Some(id)));
      && r.failure.None?
      && r.assemblyUpdates == [AssemblyUpdate(job.assemblyId, A.UnitTesting),
                               AssemblyUpdate(job.assemblyId, A.Building)]
      && r.popens == [Argv(cfg, ctx, job, UnittestStage, key), Argv(cfg, ctx, job, BuildStage, key)]
      && r.jobUpdates == [JobUpdate(job.buildId, I.Building, "Starting the image build", None, job.assemblyId),
                          JobUpdate(job.buildId, I.Complete, "built successfully", Some(id), job.assemblyId)]
      && r.deploys == [DeployRequest(job.assemblyId, id)]
  {
    var tests := UnitTestRun(cfg, ctx, job, key, 0);
    assert tests.assemblyUpdates == [AssemblyUpdate(job.assemblyId, A.UnitTesting)];
    var built := ImageBuild(job, Argv(cfg, ctx, job, BuildStage, key), Some(id));
    assert built.jobUpdates
      == [JobUpdate(job.buildId, I.Building, "Starting the image build", None, job.assemblyId),
          JobUpdate(job.buildId, I.Complete, "built successfully", Some(id), job.assemblyId)];
  }

  /** With passing tests, `build` is the unit-test stage followed by the
      image build of the build script's output. */
  lemma PassingTestsTrace(cfg: WorkerConfig, ctx: Context, job: BuildJob,
                          stored: seq<DeployKey>, output: string)
    requires Runnable(job) && Truthy(job.testCmd)
    ensures Build(cfg, ctx, job, stored, 0, output)
      == Then(UnitTestRun(cfg, ctx, job, JobKey(job, stored), 0),
              ImageBuild(job, Argv(cfg, ctx, job, BuildStage, JobKey(job, stored)), BuiltImage(output)))
  {
    var key := JobKey(job, stored);
    assert BuildRun(cfg, ctx, job, key, output)
      == ImageBuild(job, Argv(cfg, ctx, job, BuildStage, key), BuiltImage(output));
  }

  /** Failing tests: the assembly goes [UNIT_TESTING, UNIT_TESTING_FAILED],
      only the unittest script runs, and nothing is built or deployed. */
  lemma FailingTestsStopBuild(cfg: WorkerConfig, ctx: Context, job: BuildJob,
                              stored: seq<DeployKey>, exitCode: int, output: string)
    requires Runnable(job) && Truthy(job.testCmd) && exitCode != 0
    ensures var r := Build(cfg, ctx, job, stored, exitCode, output);
      && r.assemblyUpdates == [AssemblyUpdate(job.assemblyId, A.UnitTesting),
                               AssemblyUpdate(job.assemblyId, A.UnitTestingFailed)]
      && r.popens == [Argv(cfg, ctx, job, UnittestStage, JobKey(job, stored))]
      && r.jobUpdates == [] && r.deploys == []
  {
  }

  /** The private key slot: empty without a credentials reference, otherwise
      the key of the last deploy-key record for the job's source url. */
  lemma PrivateKeySlot(cfg: WorkerConfig, ctx: Context, job: BuildJob, stored: seq<DeployKey>, j: int)
    requires Runnable(job)
    requires Truthy(job.sourceCredsRef) ==> LastRecordFor(stored, job.gitInfo["source_url"], j)
    ensures Argv(cfg, ctx, job, BuildStage, JobKey(job, stored))[5]
      == Str(if Truthy(job.sourceCredsRef) then stored[j].privateKey else "")
    ensures Argv(cfg, ctx, job, UnittestStage, JobKey(job, stored))[2]
      == Str(if Truthy(job.sourceCredsRef) then stored[j].privateKey else "")
  {
    if Truthy(job.sourceCredsRef) {
      KeyForLastRecord(stored, job.gitInfo["source_url"], j);
    }
  }

  // ---------------------------------------------------------------------
  // Assembly status updates

  /** The assembly registry: the status of each stored assembly, by id. */
  type Registry = map<Value, A.AssemblyState>

  /** A call the status update makes on the registry. */
  datatype RegistryCall = GetById(id: Value) | Save(id: Value)

  /** What one status update does: the registry afterwards, the calls made
      and the exception raised, if any. */
  datatype StatusEffect = StatusEffect(registry: Registry, calls: seq<RegistryCall>,
                                       failure: Option<Error>)

  /** `update_assembly_status`: no id means nothing to update and no registry
      call; otherwise the assembly is fetched, given the status and saved. An
      unknown id fails the fetch. */
  function UpdateAssemblyStatus(registry: Registry, id: Value, status: A.AssemblyState): (r: StatusEffect)
    ensures |r.calls| > 0 <==> id != Null
    ensures r.failure.None? <==> id == Null || id in r.registry
    ensures r.failure.None? && id != Null ==> r.calls == [GetById(id), Save(id)] && r.registry[id] == status
    ensures forall k :: k != id ==> (k in r.registry <==> k in registry)
    ensures forall k :: k in registry && k != id ==> r.registry[k] == registry[k]
    ensures id in r.registry <==> id in registry
  {
    if id == Null then StatusEffect(registry, [], None)
    else if id in registry then StatusEffect(registry[id := status], [GetById(id), Save(id)], None)
    else StatusEffect(registry, [GetById(id)], Some(NotFound("assembly")))
  }

  /** Setting the same status twice is the same as setting it once. */
  lemma UpdateIdempotent(registry: Registry, id: Value, status: A.AssemblyState)
    ensures var once := UpdateAssemblyStatus(registry, id, status).registry;
      UpdateAssemblyStatus(once, id, status).registry == once
  {
  }

  /** The registry after a run's assembly status updates, applied in order. */
  function ApplyStatuses(registry: Registry, updates: seq<AssemblyUpdate>): (r: Registry)
    ensures r.Keys == registry.Keys
    decreases |updates|
  {
    if |updates| == 0 then registry
    else
      var last := updates[|updates| - 1];
      UpdateAssemblyStatus(ApplyStatuses(registry, updates[..|updates| - 1]), last.assemblyId, last.status).registry
  }

  /** A stored assembly ends with the status of the last update naming it,
      whatever the updates before. */
  lemma {:induction false} LastStatusWins(registry: Registry, updates: seq<AssemblyUpdate>, id: Value)
    requires id != Null && id in registry && |updates| > 0
    requires updates[|updates| - 1].assemblyId == id
    ensures ApplyStatuses(registry, updates)[id] == updates[|updates| - 1].status
  {
    assert id in ApplyStatuses(registry, updates[..|updates| - 1]);
  }

  /** Updates for other assemblies leave an assembly's status alone. */
  lemma {:induction false} OtherStatusesUntouched(registry: Registry, updates: seq<AssemblyUpdate>, id: Value)
    requires id in registry
    requires forall k :: 0 <= k < |updates| ==> updates[k].assemblyId != id
    ensures ApplyStatuses(registry, updates)[id] == registry[id]
    decreases |updates|
  {
    if |updates| > 0 {
      var front := updates[..|updates| - 1];
      assert forall k :: 0 <= k < |front| ==> front[k] == updates[k];
      OtherStatusesUntouched(registry, front, id);
    }
  }

  /** The assembly of a stored job ends UNIT_TESTING_FAILED when its tests
      fail, and BUILDING when the build starts. */
  lemma AssemblyStatusAfterBuild(cfg: WorkerConfig, ctx: Context, job: BuildJob,
                                 stored: seq<DeployKey>, exitCode: int, output: string,
                                 registry: Registry)
    requires Runnable(job) && job.assemblyId != Null && job.assemblyId in registry
    ensures var r := Build(cfg, ctx, job, stored, exitCode, output);
      ApplyStatuses(registry, r.assemblyUpdates)[job.assemblyId]
        == (if Truthy(job.testCmd) && exitCode != 0 then A.UnitTestingFailed else A.Building)
  {
    var r := Build(cfg, ctx, job, stored, exitCode, output);
    if Truthy(job.testCmd) && exitCode != 0 {
      FailingTestsStopBuild(cfg, ctx, job, stored, exitCode, output);
    } else if Truthy(job.testCmd) {
      PassingTestsTrace(cfg, ctx, job, stored, output);
    }
    LastStatusWins(registry, r.assemblyUpdates, job.assemblyId);
  }
}

=== FILE: text.dfy ===
/** String helpers with Python's meaning: `str.split(sep)`, `sep.join`,
    `str.startswith` and `str.strip()`. The worker reads a build tool's output
    through them. */
module Text {

  /** The characters `str.strip()` removes that are ASCII: the space, the
      tab, line feed, vertical tab, form feed and carriage return, and the
      four separators U+001C to U+001F. */
  predicate IsSpace(c: char) {
    c == ' ' || ('\t' <= c <= '\r') || ('\U{001C}' <= c <= '\U{001F}')
  }

  predicate NoSpace(s: string) {
    forall k :: 0 <= k < |s| ==> !IsSpace(s[k])
  }

  predicate StartsWith(s: string, prefix: string) {
    |prefix| <= |s| && s[..|prefix|] == prefix
  }

  /** `s.split(sep)`: the maximal separator-free pieces, always at least one. */
  function Split(s: string, sep: char): (r: seq<string>)
    ensures 1 <= |r|
    ensures forall k :: 0 <= k < |r| ==> sep !in r[k]
    decreases |s|
  {
    if |s| == 0 then [""]
    else
      var rest := Split(s[1..], sep);
      if s[0] == sep then [""] + rest
      else [[s[0]] + rest[0]] + rest[1..]
  }

  /** `sep.join(parts)`. */
  function Join(parts: seq<string>, sep: char): string
    decreases |parts|
  {
    if |parts| == 0 then ""
    else if |parts| == 1 then parts[0]
    else parts[0] + [sep] + Join(parts[1..], sep)
  }

  /** Splitting and re-joining on the same separator gives the string back. */
  lemma {:induction false} JoinSplit(s: string, sep: char)
    ensures Join(Split(s, sep), sep) == s
    decreases |s|
  {
    if |s| > 0 {
      var rest := Split(s[1..], sep);
      JoinSplit(s[1..], sep);
      if s[0] == sep {
        assert s == [sep] + s[1..];
      } else {
        var parts := [[s[0]] + rest[0]] + rest[1..];
        if |rest| == 1 {
          assert Join(parts, sep) == [s[0]] + rest[0];
        } else {
          assert Join(rest, sep) == rest[0] + [sep] + Join(rest[1..], sep);
          assert parts[1..] == rest[1..];
        }
        assert s == [s[0]] + s[1..];
      }
    }
  }

  /** A string without the separator is a single piece. */
  lemma {:induction false} SplitWithoutSeparator(s: string, sep: char)
    requires sep !in s
    ensures Split(s, sep) == [s]
    decreases |s|
  {
    if |s| > 0 {
      assert sep !in s[1..] by {
        forall k | 0 <= k < |s[1..]| ensures s[1..][k] != sep {
          assert s[1..][k] == s[k + 1];
        }
      }
      SplitWithoutSeparator(s[1..], sep);
      assert s == [s[0]] + s[1..];
    }
  }

  /** Splitting distributes over a separator: the pieces of `a` followed by
      the pieces of `b`. */
  lemma {:induction false} SplitAround(a: string, b: string, sep: char)
    ensures Split(a + [sep] + b, sep) == Split(a, sep) + Split(b, sep)
    decreases |a|
  {
    var s := a + [sep] + b;
    if |a| == 0 {
      assert s[1..] == b;
    } else {
      assert s[0] == a[0] && s[1..] == a[1..] + [sep] + b;
      SplitAround(a[1..], b, sep);
      if a[0] != sep {
        ExtendFirst([a[0]], Split(a[1..], sep), Split(b, sep));
      }
    }
  }

  /** Prefixing the first piece commutes with appending pieces. */
  lemma ExtendFirst(c: string, ra: seq<string>, rb: seq<string>)
    requires |ra| >= 1
    ensures [c + (ra + rb)[0]] + (ra + rb)[1..] == ([c + ra[0]] + ra[1..]) + rb
  {
    assert (ra + rb)[1..] == ra[1..] + rb;
  }

  /** How many whitespace characters `s.lstrip()` removes. */
  function LeadingSpaces(s: string): (n: nat)
    ensures n <= |s|
    ensures forall k :: 0 <= k < n ==> IsSpace(s[k])
    ensures n < |s| ==> !IsSpace(s[n])
    decreases |s|
  {
    if |s| > 0 && IsSpace(s[0]) then 1 + LeadingSpaces(s[1..]) else 0
  }

  /** How many whitespace characters `s.rstrip()` removes. */
  function TrailingSpaces(s: string): (n: nat)
    ensures n <= |s|
    ensures forall k :: |s| - n <= k < |s| ==> IsSpace(s[k])
    ensures n < |s| ==> !IsSpace(s[|s| - 1 - n])
    decreases |s|
  {
    if |s| > 0 && IsSpace(s[|s| - 1]) then 1 + TrailingSpaces(s[..|s| - 1]) else 0
  }

  /** `s.strip()`: the inner slice of `s` that starts and ends with a
      non-whitespace character, everything cut off being whitespace. */
  function Strip(s: string): (r: string)
    ensures LeadingSpaces(s) + |r| <= |s|
    ensures r == s[LeadingSpaces(s)..LeadingSpaces(s) + |r|]
    ensures forall k :: 0 <= k < LeadingSpaces(s) ==> IsSpace(s[k])
    ensures forall k :: LeadingSpaces(s) + |r| <= k < |s| ==> IsSpace(s[k])
    ensures |r| > 0 ==> !IsSpace(r[0]) && !IsSpace(r[|r| - 1])
    ensures NoSpace(s) ==> r == s
  {
    var n := LeadingSpaces(s);
    if n == |s| then ""
    else
      var m := TrailingSpaces(s);
      assert !IsSpace(s[n]);
      assert n < |s| - m;
      assert NoSpace(s) ==> n == 0 && m == 0 by {
        if NoSpace(s) {
          assert !IsSpace(s[0]) && !IsSpace(s[|s| - 1]);
        }
      }
      s[n..|s| - m]
  }

  /** An all-whitespace string strips to the empty string. */
  lemma StripOfSpaces(s: string)
    requires forall k :: 0 <= k < |s| ==> IsSpace(s[k])
    ensures Strip(s) == ""
  {
    AllLeading(s);
  }

  /** Every character of an all-whitespace string is leading whitespace. */
  lemma {:induction false} AllLeading(s: string)
    requires forall k :: 0 <= k < |s| ==> IsSpace(s[k])
    ensures LeadingSpaces(s) == |s|
    decreases |s|
  {
    if |s| > 0 {
      assert forall k :: 0 <= k < |s[1..]| ==> s[1..][k] == s[k + 1];
      AllLeading(s[1..]);
    }
  }
}

=== FILE: values.dfy ===
/** The dynamically typed documents that flow through the control plane: the
    YAML plan a user uploads, the dictionaries the handlers build, and the
    keyword arguments of the messages they cast. Python's truthiness and its
    `%s` formatting are spelled out here because the handlers branch on both. */
module Values {

  /** A YAML/JSON value as the Python code sees it after loading, or the
      bound method `getattr` returns for a method name of an API object. */
  datatype Value =
    | Null
    | Bool(b: bool)
    | Int(i: int)
    | Str(s: string)
    | List(items: seq<Value>)
    | Dict(fields: map<string, Value>)
    | BoundMethod(name: string)

  /** A Python dict with string keys. */
  type Document = map<string, Value>

  /** Python truthiness: `if v:`. */
  predicate Truthy(v: Value) {
    match v
    case Null => false
    case Bool(b) => b
    case Int(i) => i != 0
    case Str(s) => |s| > 0
    case List(items) => |items| > 0
    case Dict(fields) => |fields| > 0
    case BoundMethod(_) => true
  }

  /** `d.get(key)`: the stored value, or None when the key is absent. */
  function Get(d: Document, key: string): Value {
    if key in d then d[key] else Null
  }

  /** `d.get(key, default)`: a present key wins even when its value is None. */
  function GetOr(d: Document, key: string, default: Value): Value {
    if key in d then d[key] else default
  }

  /** The dict comprehension `dict((k, v) for k, v in d.items() if k != key)`. */
  function Without(d: Document, key: string): (r: Document)
    ensures key !in r
    ensures forall k :: k in d && k != key ==> k in r && r[k] == d[k]
    ensures forall k :: k in r ==> k in d
  {
    map k | k in d && k != key :: d[k]
  }

  /** The character of one decimal digit. */
  function DigitChar(d: nat): char
    requires d < 10
  {
    "0123456789"[d]
  }

  /** The digit a decimal character stands for. */
  function DigitValue(c: char): nat
    requires '0' <= c <= '9'
  {
    (c as int) - ('0' as int)
  }

  predicate AllDigits(s: string) {
    forall k :: 0 <= k < |s| ==> '0' <= s[k] <= '9'
  }

  /** Python's `needle in s` on strings: `needle` occurs somewhere in `s`. */
  predicate Substring(needle: string, s: string)
    decreases |s|
  {
    (|needle| <= |s| && s[..|needle|] == needle) || (|s| > 0 && Substring(needle, s[1..]))
  }

  /** A string shorter than the needle does not contain it. */
  lemma {:induction false} ShortNoSubstring(needle: string, s: string)
    requires |s| < |needle|
    ensures !Substring(needle, s)
    decreases |s|
  {
    if |s| > 0 {
      ShortNoSubstring(needle, s[1..]);
    }
  }

  /** Python's iteration over a string: its characters, each a string. */
  function Chars(s: string): (r: seq<string>)
    ensures |r| == |s|
    ensures forall i :: 0 <= i < |s| ==> r[i] == [s[i]]
  {
    seq(|s|, i requires 0 <= i < |s| => [s[i]])
  }

  /** A sequence of strings as values. */
  function Strs(ks: seq<string>): (r: seq<Value>)
    ensures |r| == |ks|
    ensures forall i :: 0 <= i < |ks| ==> r[i] == Str(ks[i])
  {
    seq(|ks|, i requires 0 <= i < |ks| => Str(ks[i]))
  }

  /** `str(n)` for a natural number: decimal digits without leading zeros. */
  function Decimal(n: nat): (r: string)
    ensures 1 <= |r|
    ensures AllDigits(r)
    ensures 1 < |r| ==> r[0] != '0'
    decreases n
  {
    if n < 10 then [DigitChar(n)] else Decimal(n / 10) + [DigitChar(n % 10)]
  }

  /** Reads a string of decimal digits back as a number (Horner's rule). */
  function ParseDecimal(s: string): nat
    requires AllDigits(s)
    decreases |s|
  {
    if |s| == 0 then 0
    else ParseDecimal(s[..|s| - 1]) * 10 + DigitValue(s[|s| - 1])
  }

  /** Decimal printing is undone by decimal parsing. */
  lemma {:induction false} DecimalRoundTrip(n: nat)
    ensures ParseDecimal(Decimal(n)) == n
    decreases n
  {
    if n >= 10 {
      var r := Decimal(n / 10);
      var s := r + [DigitChar(n % 10)];
      assert s[..|s| - 1] == r;
      DecimalRoundTrip(n / 10);
      DigitRoundTrip(n % 10);
      assert ParseDecimal(s) == ParseDecimal(r) * 10 + DigitValue(DigitChar(n % 10));
    }
  }

  /** A digit's character reads back as the digit. */
  lemma DigitRoundTrip(d: nat)
    requires d < 10
    ensures DigitValue(DigitChar(d)) == d
  {
  }

  /** Python's `'%s' % v`. Scalars are rendered exactly; for lists,
      mappings and bound methods only the delimiters are modelled. */
  function Format(v: Value): string {
    match v
    case Null => "None"
    case Bool(b) => if b then "True" else "False"
    case Int(i) => if i < 0 then "-" + Decimal(-i) else Decimal(i)
    case Str(s) => s
    case List(_) => "[...]"
    case Dict(_) => "{...}"
    case BoundMethod(name) => "<bound method " + name + ">"
  }

  /** The only values whose `%s` rendering is the string "1" are the integer 1
      and the string "1". */
  lemma FormatIsOne(v: Value)
    ensures Format(v) == "1" <==> v == Int(1) || v == Str("1")
  {
    if v.Int? && v.i >= 0 && Format(v) == "1" {
      DecimalRoundTrip(v.i);
      assert ParseDecimal("1") == 1;
    }
    if v.Int? && v.i < 0 {
      assert Format(v)[0] == '-';
    }
  }
}

/** Optional values, results, and the exceptions of the control plane. */
module Outcomes {
  import opened Values

  datatype Option<+T> = None | Some(value: T)

  /** The exceptions the modelled code raises or maps between. */
  datatype Error =
    | BadRequest(reason: string)
    | KeyError(key: string)
    | TypeError(what: string)
    | NotFound(resource: string)
    | PlanStillReferenced(name: string)
    | SolumException(reason: string)
    | DbReferenceError
    | DbError(message: string)
    | UnknownFormat(sourceFormat: Value, imageFormat: Value)

  datatype Result<+T> = Ok(value: T) | Err(error: Error) {
    predicate IsFailure() {
      Err?
    }

    function PropagateFailure<U>(): Result<U>
      requires Err?
    {
      Err(error)
    }

    function Extract(): T
      requires Ok?
    {
      value
    }
  }

  /** `d[key]` on a Python dict: KeyError when the key is absent. */
  function Index(d: Document, key: string): (r: Result<Value>)
    ensures r.Ok? <==> key in d
    ensures r.Ok? ==> r.value == d[key]
    ensures r.Err? ==> r.error == KeyError(key)
  {
    if key in d then Ok(d[key]) else Err(KeyError(key))
  }

  /** The fields of a value the code subscripts as a dict. */
  function AsDict(v: Value, what: string): (r: Result<Document>)
    ensures r.Ok? <==> v.Dict?
    ensures r.Ok? ==> r.value == v.fields
  {
    if v.Dict? then Ok(v.fields) else Err(TypeError(what))
  }

  /** Python's `key in container` for a string key: a key of a dict, a
      substring of a string, an element of a list. Anything else raises
      TypeError. */
  function Contains(container: Value, key: string): (r: Result<bool>)
    ensures r.Ok? <==> container.Dict? || container.Str? || container.List?
    ensures container.Dict? ==> r == Ok(key in container.fields)
    ensures container.Str? ==> r == Ok(Substring(key, container.s))
  {
    match container
    case Dict(fields) => Ok(key in fields)
    case Str(s) => Ok(Substring(key, s))
    case List(items) => Ok(Str(key) in items)
    case _ => Err(TypeError("in"))
  }

  /** `container[key]` for a string key: only a dict can be subscripted by
      one; a string or a list raises TypeError, a dict without the key
      KeyError. */
  function Subscript(container: Value, key: string): (r: Result<Value>)
    ensures r.Ok? <==> container.Dict? && key in container.fields
    ensures r.Ok? ==> r.value == container.fields[key]
    ensures container.Dict? && key !in container.fields ==> r == Err(KeyError(key))
  {
    if container.Dict? then Index(container.fields, key) else Err(TypeError("subscript"))
  }
}

=== FILE: vocabulary.dfy ===
/** The lifecycle of an image: one build attempt for one artifact. */
module ImageStates {

  datatype ImageState =
    | Pending
    | UnitTesting
    | UnitTestingFailed
    | Building
    | Complete
    | Error

  /** The states no worker moves an image out of. */
  predicate Terminal(s: ImageState) {
    s == UnitTestingFailed || s == Complete || s == Error
  }

  /** How far an image is in its lifecycle; a build never moves it back. */
  function Stage(s: ImageState): (n: nat)
    ensures n <= 3
    ensures Terminal(s) <==> n == 3
  {
    match s
    case Pending => 0
    case UnitTesting => 1
    case Building => 2
    case UnitTestingFailed => 3
    case Complete => 3
    case Error => 3
  }
}

/** The lifecycle of an assembly: the deployable unit built from a plan. */
module AssemblyStates {

  datatype AssemblyState =
    | Queued
    | UnitTesting
    | UnitTestingFailed
    | Building
    | Ready
    | Deleting
    | Error
}

/** The request context the API and the workers receive. */
module Contexts {

  datatype Context = Context(
    user: string,
    tenant: string,
    userName: string,
    authToken: string,
    authUrl: string)
}

/** Deploy keys: the per-repository key material a plan provisions for
    private sources, and the handle under which it is stored. */
module Secrets {
  import opened Values

  /** One RSA key pair as the key generator exports it. */
  datatype KeyPair = KeyPair(publicKey: string, privateKey: string)

  /** One `deploy_keys` entry: the repository and the key that clones it. */
  datatype DeployKey = DeployKey(sourceUrl: Value, privateKey: string)

  /** The value stored as `REPO_DEPLOY_KEYS`: either the encoded payload
      itself or a reference into an external store. Base64 of the payload's
      text form is modelled by keeping the payload. */
  datatype Handle = Inline(payload: seq<DeployKey>) | Ref(name: string)

  /** Python truthiness of the handle string. An encoded payload is never
      empty; a reference is empty exactly when its name is. */
  predicate HandleTruthy(h: Handle) {
    h.Inline? || |h.name| > 0
  }
}

/** The message a caller casts to a worker (the keyword arguments of
    `perform_action`), and the `git_info` keys it carries. */
module Messages {
  import opened Values

  datatype Message = Message(
    verb: string,
    buildId: Value,
    gitInfo: Document,
    name: Value,
    baseImageId: Value,
    sourceFormat: Value,
    imageFormat: Value,
    assemblyId: Value,
    testCmd: Value,
    artifactType: Value,
    runCmd: Value,
    others: Value)

  /** One `send_status(ret_code, status_url, status_token, pending)` call:
      the commit status callback. Whether and how it posts is the HTTP
      layer's business. */
  datatype StatusCall = StatusCall(retCode: int, statusUrl: Value, statusToken: Value, pending: bool)
}

=== FILE: workflow.dfy ===
/** The workflow resource as the API shows it: an object whose attributes are
    each either unset or a value, built from a database row with its type and
    uri, and turned back into the dict the handler stores. */
module WorkflowModel {
  import opened Values
  import opened Outcomes

  /** A wsme attribute: never assigned, or assigned a value (possibly None). */
  datatype Attr = Unset | Set(v: Value)

  /** The Workflow API type; `kind` is the `type` attribute. */
  datatype Workflow = Workflow(
    uri: Attr,
    uuid: Attr,
    kind: Attr,
    id: Attr,
    appId: Attr,
    wfId: Attr,
    source: Attr,
    config: Attr,
    actions: Attr)

  /** The attribute names the Workflow class declares. */
  const WorkflowAttributes: set<string> :=
    {"uri", "uuid", "type", "id", "app_id", "wf_id", "source", "config", "actions"}

  /** The attributes `as_dict` copies from the object whenever they are set
      and not None, whatever the database model declares. */
  const Overridden: seq<string> := ["id", "app_id", "wf_id", "source", "config", "actions"]

  /** The methods the Workflow class defines (datamodel/workflow.py:45-90),
      apart from the dunder-named constructor. */
  const WorkflowMethods: set<string> := {"sample", "from_db_model", "as_dict_from_keys", "as_dict"}

  /** The names in the Workflow class's `__dict__` that do not start with
      `__`: its attributes and its methods. */
  const WorkflowClassNames: set<string> := WorkflowAttributes + WorkflowMethods

  /** `getattr(w, name)` where `hasattr(w, name)`: a declared attribute's
      state, or the bound method of a method name; None for any other name. */
  function Attribute(w: Workflow, name: string): (r: Option<Attr>)
    ensures r.Some? <==> name in WorkflowClassNames
    ensures name in WorkflowMethods ==> r == Some(Set(BoundMethod(name)))
    ensures name !in WorkflowMethods ==> r == DeclaredAttribute(w, name)
  {
    if name in WorkflowMethods then Some(Set(BoundMethod(name))) else DeclaredAttribute(w, name)
  }

  /** The state of a declared attribute; None for any other name. The name
      is told apart by its length and first letter before it is compared
      whole. */
  function DeclaredAttribute(w: Workflow, name: string): (r: Option<Attr>)
    ensures r.Some? <==> name in WorkflowAttributes
  {
    if |name| == 0 then None
    else
      var candidate := match (|name|, name[0])
        case (2, 'i') => ("id", w.id)
        case (3, 'u') => ("uri", w.uri)
        case (4, 'u') => ("uuid", w.uuid)
        case (4, 't') => ("type", w.kind)
        case (5, 'w') => ("wf_id", w.wfId)
        case (6, 'a') => ("app_id", w.appId)
        case (6, 's') => ("source", w.source)
        case (6, 'c') => ("config", w.config)
        case (7, 'a') => ("actions", w.actions)
        case _ => ("", Unset);
      if name == candidate.0 then Some(candidate.1) else None
  }

  /** The attribute is declared and assigned. */
  predicate Assigned(w: Workflow, name: string) {
    Attribute(w, name).Some? && Attribute(w, name).value.Set?
  }

  /** The value of an assigned attribute. */
  function ValueOf(w: Workflow, name: string): Value
    requires Assigned(w, name)
  {
    Attribute(w, name).value.v
  }

  /** `as_dict_from_keys`: the requested attributes the object has and has
      assigned. */
  function AsDictFromKeys(w: Workflow, keys: set<string>): (d: Document)
    ensures forall k :: k in d <==> k in keys && Assigned(w, k)
    ensures forall k :: k in d ==> d[k] == ValueOf(w, k)
  {
    map k | k in keys && Assigned(w, k) :: ValueOf(w, k)
  }

  /** A database model attribute `as_dict` considers: not dunder-prefixed
      and not `as_dict` itself. */
  predicate ValidKey(name: string) {
    !(|name| >= 2 && name[0] == '_' && name[1] == '_') && name != "as_dict"
  }

  /** The attributes the loop of `as_dict` copies: assigned, and not None. */
  predicate Overrides(w: Workflow, attrs: seq<string>, k: string) {
    k in attrs && Assigned(w, k) && ValueOf(w, k) != Null
  }

  /** The loop of `as_dict` over `attrs`, which assigns each overriding
      attribute's value over `base`. The names are distinct, so the order of
      the assignments does not matter. */
  function Override(base: Document, w: Workflow, attrs: seq<string>): (d: Document)
    ensures forall k :: k in d <==> k in base || Overrides(w, attrs, k)
    ensures forall k :: k in d ==> d[k] == if Overrides(w, attrs, k) then ValueOf(w, k) else base[k]
  {
    map k | k in base.Keys + (set a | a in attrs && Overrides(w, attrs, a)) ::
      if Overrides(w, attrs, k) then ValueOf(w, k) else base[k]
  }

  /** The attributes `as_dict(db_model)` returns, where `modelAttrs` are
      the names in the database model's class dict: an assigned attribute
      the model declares, or one of the six workflow fields holding a value
      other than None. */
  predicate Kept(w: Workflow, modelAttrs: set<string>, k: string) {
    Assigned(w, k) && ((k in modelAttrs && ValidKey(k)) || (k in Overridden && ValueOf(w, k) != Null))
  }

  /** `as_dict(db_model)`: the kept attributes with their values. */
  function AsDictFor(w: Workflow, modelAttrs: set<string>): (d: Document)
    ensures forall k :: k in d <==> Kept(w, modelAttrs, k)
    ensures forall k :: k in d ==> Assigned(w, k) && d[k] == ValueOf(w, k)
  {
    map k | k in WorkflowClassNames && Assigned(w, k) && Kept(w, modelAttrs, k) :: ValueOf(w, k)
  }

  /** The kept attributes are what the method computes: the declared
      attributes from `as_dict_from_keys`, then the loop over the six
      workflow fields. */
  lemma AsDictIsLoop(w: Workflow, modelAttrs: set<string>)
    ensures AsDictFor(w, modelAttrs) == Override(DeclaredPart(w, modelAttrs), w, Overridden)
  {
    var d := AsDictFor(w, modelAttrs);
    var e := Override(DeclaredPart(w, modelAttrs), w, Overridden);
    forall k ensures (k in d <==> k in e) && (k in d ==> d[k] == e[k]) {
      KeptIsLoop(w, modelAttrs, k);
    }
    assert d.Keys == e.Keys;
  }

  /** The first half of `as_dict`: `as_dict_from_keys` over the database
      model's valid attribute names. */
  function DeclaredPart(w: Workflow, modelAttrs: set<string>): Document {
    AsDictFromKeys(w, set k | k in modelAttrs && ValidKey(k))
  }

  /** One attribute of `AsDictIsLoop`. */
  lemma KeptIsLoop(w: Workflow, modelAttrs: set<string>, k: string)
    ensures var d := AsDictFor(w, modelAttrs);
      var e := Override(DeclaredPart(w, modelAttrs), w, Overridden);
      (k in d <==> k in e) && (k in d ==> d[k] == e[k])
  {
    var base := DeclaredPart(w, modelAttrs);
    assert k in base <==> k in modelAttrs && ValidKey(k) && Assigned(w, k);
  }

  /** A stored column as an attribute: assigned when the row has it. */
  function Column(row: Document, name: string): Attr {
    if name in row then Set(row[name]) else Unset
  }

  /** The workflow's uri: `<host>/v1/apps/<app_id>/workflows/<wf_id>`. */
  function WorkflowUri(hostUrl: string, appId: Value, wfId: Value): string {
    hostUrl + "/v1/apps/" + Format(appId) + "/workflows/" + Format(wfId)
  }

  /** A workflow numbered `n` has the decimal digits of `n` at the end of
      its uri. */
  lemma NumberedUri(hostUrl: string, appId: Value, n: nat)
    ensures WorkflowUri(hostUrl, appId, Int(n)) == hostUrl + "/v1/apps/" + Format(appId) + "/workflows/" + Decimal(n)
  {
  }

  /** `from_db_model`: the row's columns as attributes, with `type` the
      model's table name and `uri` built from the row's app and workflow
      numbers. Columns the type does not declare are dropped. */
  function FromDbModel(row: Document, tableName: string, hostUrl: string): (w: Workflow)
    ensures w.kind == Set(Str(tableName))
    ensures w.uri == Set(Str(WorkflowUri(hostUrl, Get(row, "app_id"), Get(row, "wf_id"))))
    ensures forall k :: k in WorkflowAttributes && k != "type" && k != "uri" ==>
      (Assigned(w, k) <==> k in row) && (k in row ==> ValueOf(w, k) == row[k])
  {
    Workflow(Set(Str(WorkflowUri(hostUrl, Get(row, "app_id"), Get(row, "wf_id")))), Column(row, "uuid"),
             Set(Str(tableName)), Column(row, "id"), Column(row, "app_id"), Column(row, "wf_id"),
             Column(row, "source"), Column(row, "config"), Column(row, "actions"))
  }

  /** A stored column survives the trip through the API type and back, when
      the database model declares it or it is one of the six workflow fields
      with a value. */
  lemma RowRoundTrip(row: Document, tableName: string, hostUrl: string, modelAttrs: set<string>, k: string)
    requires k in WorkflowAttributes && k != "type" && k != "uri" && k in row
    requires (k in modelAttrs && ValidKey(k)) || (k in Overridden && row[k] != Null)
    ensures var d := AsDictFor(FromDbModel(row, tableName, hostUrl), modelAttrs);
      k in d && d[k] == row[k]
  {
  }

  /** Against the Workflow type itself, every assigned attribute is kept. */
  lemma DeclaredKept(w: Workflow, k: string)
    requires k in WorkflowClassNames && ValidKey(k)
    ensures k in AsDictFor(w, WorkflowClassNames) <==> Assigned(w, k)
    ensures Assigned(w, k) ==> AsDictFor(w, WorkflowClassNames)[k] == ValueOf(w, k)
  {
  }

  /** Against the Workflow type itself, the dict also holds the bound
      methods `sample`, `from_db_model` and `as_dict_from_keys`, though not
      `as_dict`, whose name the valid keys leave out. */
  lemma ClassMethodsReturned(w: Workflow)
    ensures var d := AsDictFor(w, WorkflowClassNames);
      && "sample" in d && d["sample"] == BoundMethod("sample")
      && "from_db_model" in d && d["from_db_model"] == BoundMethod("from_db_model")
      && "as_dict_from_keys" in d && d["as_dict_from_keys"] == BoundMethod("as_dict_from_keys")
      && "as_dict" !in d
  {
    DeclaredKept(w, "sample");
    DeclaredKept(w, "from_db_model");
    DeclaredKept(w, "as_dict_from_keys");
  }

  /** A column the database model does not declare and that holds None is
      lost on the way back. */
  lemma NullUndeclaredDropped(row: Document, tableName: string, hostUrl: string, modelAttrs: set<string>, k: string)
    requires k in row && row[k] == Null && k !in modelAttrs
    ensures k !in AsDictFor(FromDbModel(row, tableName, hostUrl), modelAttrs)
  {
  }
}

/** The workflows of one app: creating a workflow numbered after the app's
    existing ones, listing them, and reading one. */
module WorkflowController {
  import opened Values
  import opened Outcomes
  import opened Contexts
  import opened Routing
  import opened WorkflowModel

  /** The app fields a new workflow copies. */
  datatype AppRecord = AppRecord(id: Value, workflowConfig: Value, source: Value)

  /** The fields the workflow handler copies into a new row. */
  const WorkflowFields: set<string> := {"app_id", "wf_id", "source", "config", "actions"}

  /** The columns of a new workflow row. */
  const RowColumns: set<string> := {"id", "user_id", "project_id", "deleted"} + WorkflowFields

  /** The workflow handler's `create`: a row with a fresh id and the
      context's owner, taking the five workflow fields from the dict. A
      missing field is a KeyError, checked in the order the handler reads
      them. */
  function CreateRow(ctx: Context, data: Document, newUuid: string): (r: Result<Document>)
    ensures r.Ok? <==> "app_id" in data && "wf_id" in data && "source" in data && "config" in data && "actions" in data
    ensures "app_id" !in data ==> r == Err(KeyError("app_id"))
    ensures "app_id" in data && "wf_id" !in data ==> r == Err(KeyError("wf_id"))
    ensures "app_id" in data && "wf_id" in data && "source" !in data ==> r == Err(KeyError("source"))
    ensures "app_id" in data && "wf_id" in data && "source" in data && "config" !in data ==> r == Err(KeyError("config"))
    ensures "app_id" in data && "wf_id" in data && "source" in data && "config" in data && "actions" !in data ==>
      r == Err(KeyError("actions"))
    ensures r.Ok? ==> r.value.Keys == RowColumns
    ensures r.Ok? ==> (&& r.value["id"] == Str(newUuid)
                       && r.value["user_id"] == Str(ctx.user) && r.value["project_id"] == Str(ctx.tenant)
                       && r.value["deleted"] == Bool(false)
                       && (forall k :: k in WorkflowFields ==> k in r.value && r.value[k] == data[k]))
  {
    var appId :- Index(data, "app_id");
    var wfId :- Index(data, "wf_id");
    var source :- Index(data, "source");
    var config :- Index(data, "config");
    var actions :- Index(data, "actions");
    Ok(map["id" := Str(newUuid), "user_id" := Str(ctx.user), "project_id" := Str(ctx.tenant),
           "deleted" := Bool(false), "app_id" := appId, "wf_id" := wfId, "source" := source,
           "config" := config, "actions" := actions])
  }

  /** The number a new workflow of an app gets: one more than the count of
      the app's workflows. */
  function NextNumber(existing: seq<Document>): (n: Value)
    ensures n.Int? && n.i >= 1
  {
    Int(|existing| + 1)
  }

  /** The request's workflow with the app's fields and the next number
      filled in. */
  function Filled(data: Workflow, app: AppRecord, existing: seq<Document>): Workflow {
    data.(appId := Set(app.id), config := Set(app.workflowConfig), source := Set(app.source),
          wfId := Set(NextNumber(existing)))
  }

  /** `data.as_dict(Workflow)`, stored by the handler and shown: the row
      takes the five workflow fields from the object, which must all be set. */
  function Store(ctx: Context, w: Workflow, newUuid: string, tableName: string,
                 hostUrl: string): (r: Result<(Document, Workflow)>)
    ensures r.Ok? <==> w.appId.Set? && w.wfId.Set? && w.source.Set? && w.config.Set? && w.actions.Set?
    ensures w.appId.Set? && w.wfId.Set? && w.source.Set? && w.config.Set? && w.actions.Unset? ==>
      r == Err(KeyError("actions"))
    ensures r.Ok? ==> var row := r.value.0;
      && "id" in row && "app_id" in row && "config" in row && "source" in row && "wf_id" in row && "actions" in row
      && row["id"] == Str(newUuid)
      && row["app_id"] == w.appId.v && row["config"] == w.config.v && row["source"] == w.source.v
      && row["wf_id"] == w.wfId.v && row["actions"] == w.actions.v
      && r.value.1 == FromDbModel(row, tableName, hostUrl)
      && r.value.1.uri == Set(Str(WorkflowUri(hostUrl, w.appId.v, w.wfId.v)))
  {
    var d := AsDictFor(w, WorkflowClassNames);
    WorkflowFieldsKept(w);
    var row :- CreateRow(ctx, d, newUuid);
    Ok((row, FromDbModel(row, tableName, hostUrl)))
  }

  /** Against the Workflow type itself, the five workflow fields are in the
      dict exactly when they are set, with their values. */
  lemma WorkflowFieldsKept(w: Workflow)
    ensures var d := AsDictFor(w, WorkflowClassNames);
      && ("app_id" in d <==> w.appId.Set?) && (w.appId.Set? ==> d["app_id"] == w.appId.v)
      && ("wf_id" in d <==> w.wfId.Set?) && (w.wfId.Set? ==> d["wf_id"] == w.wfId.v)
      && ("source" in d <==> w.source.Set?) && (w.source.Set? ==> d["source"] == w.source.v)
      && ("config" in d <==> w.config.Set?) && (w.config.Set? ==> d["config"] == w.config.v)
      && ("actions" in d <==> w.actions.Set?) && (w.actions.Set? ==> d["actions"] == w.actions.v)
  {
    FieldAttributes(w);
    FieldKept(w, "app_id", w.appId);
    FieldKept(w, "wf_id", w.wfId);
    FieldKept(w, "source", w.source);
    FieldKept(w, "config", w.config);
    FieldKept(w, "actions", w.actions);
  }

  /** The five workflow fields are the attributes of their names. */
  lemma FieldAttributes(w: Workflow)
    ensures Attribute(w, "app_id") == Some(w.appId) && Attribute(w, "wf_id") == Some(w.wfId)
    ensures Attribute(w, "source") == Some(w.source) && Attribute(w, "config") == Some(w.config)
    ensures Attribute(w, "actions") == Some(w.actions)
  {
  }

  lemma FieldKept(w: Workflow, k: string, a: Attr)
    requires k in WorkflowClassNames && ValidKey(k) && Attribute(w, k) == Some(a)
    ensures var d := AsDictFor(w, WorkflowClassNames);
      (k in d <==> a.Set?) && (a.Set? ==> d[k] == a.v)
  {
    DeclaredKept(w, k);
  }

  /** `post`: refuse an absent body, look the app up, number the workflow
      after the app's `existing` workflows, take its app id, config and
      source from the app, store it under `newUuid`, and show the stored
      row. */
  function Post(ctx: Context, apps: map<string, AppRecord>, appId: string, data: Option<Workflow>,
                existing: seq<Document>, newUuid: string, tableName: string,
                hostUrl: string): (r: Result<(Document, Workflow)>)
    ensures data.None? ==> r == Err(BadRequest("No data."))
    ensures data.Some? && appId !in apps ==> r == Err(NotFound("app"))
    ensures data.Some? && appId in apps && data.value.actions.Unset? ==> r == Err(KeyError("actions"))
    ensures r.Ok? <==> data.Some? && appId in apps && data.value.actions.Set?
    ensures r.Ok? ==> var row := r.value.0; var app := apps[appId];
      && "id" in row && "app_id" in row && "config" in row && "source" in row && "wf_id" in row && "actions" in row
      && row["id"] == Str(newUuid)
      && row["app_id"] == app.id && row["config"] == app.workflowConfig && row["source"] == app.source
      && row["wf_id"] == Int(|existing| + 1)
      && row["actions"] == data.value.actions.v
      && r.value.1 == FromDbModel(row, tableName, hostUrl)
      && r.value.1.uri == Set(Str(WorkflowUri(hostUrl, app.id, Int(|existing| + 1))))
  {
    if data.None? then Err(BadRequest("No data."))
    else if appId !in apps then Err(NotFound("app"))
    else Store(ctx, Filled(data.value, apps[appId], existing), newUuid, tableName, hostUrl)
  }

  /** `get_all`: the app must exist; every workflow row of the app, shown. */
  function GetAll(apps: map<string, AppRecord>, appId: string, rows: seq<Document>,
                  tableName: string, hostUrl: string): (r: Result<seq<Workflow>>)
    ensures r.Ok? <==> appId in apps
    ensures r.Err? ==> r.error == NotFound("app")
    ensures r.Ok? ==> |r.value| == |rows|
    ensures r.Ok? ==> forall i :: 0 <= i < |rows| ==>
           r.value[i].uri == Set(Str(WorkflowUri(hostUrl, Get(rows[i], "app_id"), Get(rows[i], "wf_id"))))
    ensures r.Ok? ==> forall i :: 0 <= i < |rows| ==> r.value[i] == FromDbModel(rows[i], tableName, hostUrl)
  {
    if appId !in apps then Err(NotFound("app"))
    else Ok(seq(|rows|, i requires 0 <= i < |rows| => FromDbModel(rows[i], tableName, hostUrl)))
  }

  /** A created workflow is listed after the app's earlier ones exactly as
      `post` showed it. */
  lemma PostThenList(ctx: Context, apps: map<string, AppRecord>, appId: string, data: Option<Workflow>,
                     existing: seq<Document>, newUuid: string, tableName: string, hostUrl: string)
    requires Post(ctx, apps, appId, data, existing, newUuid, tableName, hostUrl).Ok?
    ensures var p := Post(ctx, apps, appId, data, existing, newUuid, tableName, hostUrl).value;
      var l := GetAll(apps, appId, existing + [p.0], tableName, hostUrl);
      l.Ok? && |l.value| == |existing| + 1 && l.value[|existing|] == p.1
  {
  }

  /** Numbering counts rows: once a workflow is deleted, the next one gets
      the number of the app's last workflow again. */
  lemma NumberReused(ctx: Context, apps: map<string, AppRecord>, appId: string, data: Option<Workflow>,
                     existing: seq<Document>, newUuid: string, tableName: string, hostUrl: string)
    requires Post(ctx, apps, appId, data, existing, newUuid, tableName, hostUrl).Ok?
    requires |existing| > 0 && Get(existing[|existing| - 1], "wf_id") == Int(|existing| + 1)
    ensures Post(ctx, apps, appId, data, existing, newUuid, tableName, hostUrl).value.0["wf_id"]
      == Get(existing[|existing| - 1], "wf_id")
  {
  }

  /** The single workflow controller's `get`: the app must exist, then the
      workflow is read by uuid. */
  function GetOne(apps: map<string, AppRecord>, appId: string, workflows: map<string, Document>,
               wfUuid: string, tableName: string, hostUrl: string): (r: Result<Workflow>)
    ensures appId !in apps ==> r == Err(NotFound("app"))
    ensures r.Ok? <==> appId in apps && wfUuid in workflows
    ensures r.Ok? ==> r.value == FromDbModel(workflows[wfUuid], tableName, hostUrl)
  {
    if appId !in apps then Err(NotFound("app"))
    else if wfUuid !in workflows then Err(NotFound("workflow"))
    else Ok(FromDbModel(workflows[wfUuid], tableName, hostUrl))
  }

  /** The workflow read does not depend on the app in the path: under any
      existing app the same workflow is shown, whichever app it belongs to. */
  lemma GetIgnoresOwner(apps: map<string, AppRecord>, app1: string, app2: string,
                        workflows: map<string, Document>, wfUuid: string, tableName: string, hostUrl: string)
    requires app1 in apps && app2 in apps
    ensures GetOne(apps, app1, workflows, wfUuid, tableName, hostUrl) == GetOne(apps, app2, workflows, wfUuid, tableName, hostUrl)
  {
  }

  /** `_lookup` of an app's workflows collection: the item controller gets
      the app id and the workflow uuid; the remainder loses one trailing
      empty segment. */
  function Lookup(appId: string, wfUuid: string, remainder: seq<string>): (r: (string, string, seq<string>))
    ensures r.0 == appId && r.1 == wfUuid
    ensures |remainder| - 1 <= |r.2| <= |remainder| && r.2 == remainder[..|r.2|]
    ensures remainder != r.2 <==> |remainder| > 0 && remainder[|remainder| - 1] == ""
  {
    (appId, wfUuid, DropTrailingEmpty(remainder))
  }
}
